=== FILE: README.md ===
# Ollama page translator: a verified model

The extension translates text on web pages through a local Ollama service.
It has three contexts:

- **The background worker** (`background.js`) answers `translate` messages.
  - It builds a prompt and a POST /api/generate request from the stored settings.
  - It maps a non-ok HTTP status to a remediation message.
  - It validates and trims the service's answer.
  - It rewrites a failed connection (a `TypeError`) into a cannot-connect error.
  - It replies `{success, translation | error}`.
  - It also reports the service's status from GET /api/tags and forwards context-menu clicks to the page.
- **The toolbar popup** (`popup.js`) is the user's panel.
  - It holds the settings form and its validation.
  - It holds the model selector, with the byte-size label of each model and the rules for which model is selected.
  - It has a manual translation box, whose result goes through an HTML-escape chain before it is assigned to `innerHTML`.
  - It has a connection test.
- **The page overlay** (`content.js`) is a `TranslationManager` per page.
  - It shows one floating translate button over the selection.
  - It shows one translation popup. The popup is either anchored under the selection, or centred, draggable and pinnable when it is opened from the context menu.

## How the model is built

The model follows that structure, one module per file:

| file | module | form |
|---|---|---|
| `js_strings.dfy` | `JsStrings` | JavaScript string operations: `trim` with its whitespace set, decimal rendering of a number, and a single-character global `replace` |
| `protocol.dfy` | `Protocol` | What the contexts exchange: stored settings (as a map, with `get(defaults)` and `set`), HTTP outcomes, decoded bodies, JavaScript errors (`name` and `message`), and messages and replies |
| `html_escape.dfy` | `HtmlEscape` | The popup's escape chain, a per-character reference definition, and the decoding a browser does |
| `background.dfy` | `Background` | The background worker, as functions |
| `popup.dfy` | `Popup` | The popup: pure functions for validation and outcome classification, a `while` loop for `formatSize`, and classes `ModelSelect` (the `<select>` element) and `PopupPage` (the popup document) whose methods update their fields |
| `content.dfy` | `Content` | The page overlay: classes `TranslationManager` and `TranslationPopup`, and the drag clamp |

Calls into code that is not visible become parameters:

- A call to the service is a function from the request to its `HttpOutcome`. The outcome is one of:
  - `FetchFailed` with a JavaScript error. The 5-second abort of `checkOllamaStatus` is an error named `TimeoutError`.
  - `Responded` with a status, a status text and a body that decoded or did not.
- `chrome.storage.sync` is a `map<string, string>`.
- A message's delivery is a `Delivery`: the receiver's reply, or `chrome.runtime.lastError`.
- A selection's text is a string.
- DOM geometry consists of integers.

Three behaviours of the code that are easy to misread:

- `save` refuses an empty URL, model or prompt. An empty target language is not refused: it falls back to `zh-CN`.
- The answer is refused when its `response` field is empty, and not only when it is absent.
- Every `TypeError` becomes the cannot-connect error. That includes the one `trim` throws on a non-string `response`.

## Model

| member | source | states |
|---|---|---|
| `JsStrings.Trim` | background.js:81 | `trim`: the result is no longer than the input, has no whitespace at either end, and is empty exactly when the input is all whitespace |
| `JsStrings.TrimIsMiddle` | popup.js:88 | The trimmed text is a contiguous slice of the input, and everything around it is whitespace |
| `JsStrings.TrimOfTrimmed` | popup.js:91 | Trimming a trimmed text changes nothing, which makes re-validating a saved form a no-op |
| `JsStrings.NatToString` | background.js:110 | `${n}` for a non-negative integer: a non-empty string of decimal digits with no leading zero ("0" for zero only) |
| `JsStrings.ParseNatToString` | background.js:110 | `${status}` is a digit string that reads back as the same number |
| `JsStrings.NatToStringInjective` | popup.js:260 | Different statuses render as different texts |
| `JsStrings.ReplaceAllAppend` | popup.js:354 | A global single-character replace distributes over concatenation |
| `Protocol.SomeNamedIffInNames` | background.js:219-226 | `models.some(m => m.name === name)` holds exactly when `name` is in `models.map(m => m.name)` |
| `Protocol.ModelsOf` | background.js:216 | `data.models || []`: the listed models, or none when the field is absent |
| `Protocol.Names` | background.js:226 | `models.map(m => m.name)`: one name per model, in list order |
| `Protocol.SomeNamed` | background.js:219 | `models.some(m => m.name === name)`: true exactly when some model has that name |
| `Protocol.LoadConfig` | background.js:10-16 | `storage.get(defaults)`: each key's stored value, or its default when the key was never stored |
| `Protocol.StoreConfig` | background.js:18-24 | `storage.set(config)`: the four keys are written and every other stored key keeps its value |
| `Protocol.StoreThenLoad` | background.js:18-24 | Storing a configuration and loading it gives the same four values back, whatever the defaults and whatever was stored before |
| `Protocol.StoreThenLoadAnyDefaults` | background.js:18-24 | The same, for all sets of defaults at once |
| `Protocol.PermissionHelpNamesOrigins` | background.js:104 | The 403 remediation text names `OLLAMA_ORIGINS` |
| `Background.BuildPrompt` | background.js:60 | The prompt is the template, a blank line, and the text between double quotes |
| `Background.PromptCarriesText` | background.js:60 | The text can be read back out of the prompt built on a template, so the prompt carries it unaltered |
| `Background.BuildRequest` | background.js:63-72 | The request goes to `{ollamaUrl}/api/generate` with the configured model, a prompt from which the text reads back, `stream` false and `max_tokens` 1000 |
| `Background.StatusMessage` | background.js:102-111 | 403 gives the remediation text, which names `OLLAMA_ORIGINS`; 404 gives the not-found prefix followed by the model name; 400 and 500 give their fixed texts; any other status gives `请求失败: ` followed by the status in decimal, whose digits read back as that status |
| `Background.StatusMessageInjective` | background.js:102-111 | Two different statuses never give the same message |
| `Background.ReadResponse` | background.js:77-81 | The answer is accepted exactly when `response` is a non-empty string, and it comes back trimmed. A truthy non-string makes `trim` throw a `TypeError`. Anything else is the format error |
| `Background.Reclassify` | background.js:83-88 | A `TypeError` becomes the cannot-connect error and every other error is kept; the result is never a `TypeError` |
| `Background.TranslateText` | background.js:54-115 | Success exactly when the service answered ok with a non-empty string, and the translation is that string trimmed. On an ok status, a missing, empty or falsy `response` fails with "API返回数据格式错误", a truthy non-string fails with the cannot-connect error, and an unreadable body fails with its error reclassified. A non-ok status fails with its `StatusMessage`. A failed connection fails with the cannot-connect error. Other errors propagate, and no failure is a `TypeError` |
| `Background.HandleTranslateRequest` | background.js:38-46 | One reply: success carrying the translation exactly when `translateText` succeeds, otherwise failure carrying the error's message |
| `Background.HandleMessage` | background.js:29-36 | Only `translate` is answered, with the configuration storage holds, falling back to the worker's defaults |
| `Background.DefaultRequest` | background.js:3-8 | With nothing stored, a translation goes to `http://localhost:11434/api/generate` with `qwen2.5:latest` and the default prompt |
| `Background.TranslateExample` | background.js:54-88 | On a service that answers " 你好\n" to the prompt built for "hello", the reply is `Translated("你好")` |
| `Background.StatusOfError` | background.js:229-243 | A timeout gives "连接超时" with the is-it-running hint. Any other error gives its message with the cannot-connect hint. Both are disconnected |
| `Background.CheckOllamaStatus` | background.js:193-227 | Connected exactly on an ok, decoded response. In that case: model count = number of models, model exists iff the configured model's name is among the names, and the names are in list order. A non-ok response gives `HTTP {status}` with the status text. A failed fetch, or an ok body that cannot be read, gives `StatusOfError` of its error, so a timeout gives "连接超时" |
| `Background.TestOllamaConnection` | background.js:165-191 | An ok, decoded response lists the models (none when the field is absent). A non-ok response gives `HTTP {status}`. A failed fetch, or an ok body that cannot be read, gives its error's own message |
| `Background.HandleContextMenuClick` | background.js:149-157 | A `translateSelection` message with the selection goes to the tab exactly when the item is `translate-selection` and the selection is non-empty |
| `HtmlEscape.EscapeHtml` | popup.js:353-359 | The replace chain as written (`&`, `<`, `>`, `"`, `'`, then the newline) gives exactly the per-character escape of its input |
| `HtmlEscape.EscapeHtmlChar` | popup.js:353-359 | On one character the replace chain gives that character's own entity (or `<br>`), because no later replace touches what an earlier one produced |
| `HtmlEscape.EscapeHtmlIsPerChar` | popup.js:353-359 | The chain as written equals the per-character reference transform on every string |
| `HtmlEscape.EscapeHtmlIsSafe` | popup.js:353-359 | The output's only `<` characters open `<br>`, and it holds no quote and no raw newline |
| `HtmlEscape.UnescapeEscapeHtml` | popup.js:353-359 | Decoding the five entities and `<br>` gives back exactly the input |
| `Popup.ValidateSettings` | popup.js:87-97 | Refused with "请填写完整的配置信息" exactly when the trimmed URL, the model or the trimmed prompt is empty. Otherwise the URL and prompt are trimmed, the model is kept, and an empty target language becomes `zh-CN` |
| `Popup.ValidateFormOf` | popup.js:87-97 | A savable configuration, submitted again, is accepted unchanged |
| `Popup.ValidateSettingsIdempotent` | popup.js:87-97 | Validating the configuration that validation built gives that configuration again |
| `Popup.SaveSettings` | popup.js:85-99 | A refused form leaves storage as it was. An accepted one loads back as the validated configuration under any defaults, so each of the four keys is stored with its validated value. No other key changes |
| `Popup.SaveBanner` | popup.js:100-106 | Success status, reading "配置保存成功", exactly when validation accepts the form; otherwise the error status with the save-failed prefix and the validation message |
| `Popup.DescribesSizeUnique` | popup.js:205-217 | At most one label describes a size |
| `Popup.SmallSizeInBytes` | popup.js:211 | A size under 1024 is shown as itself in `B` |
| `Popup.LargeSizeInTerabytes` | popup.js:211 | A size of 1024^4 or more is shown in `TB`, the last unit |
| `Popup.FormatSize` | popup.js:205-217 | Unknown for an absent or zero size. Otherwise the unit is the largest (up to `TB`) that the size reaches, and the number is the size's integer part in that unit |
| `Popup.IndexOfValue` | popup.js:189 | The option `select.value = v` picks: the first with value `v`, or none |
| `Popup.ListedValues` | popup.js:191 | A listing of the models has an option for a name exactly when some model has that name |
| `Popup.LoadedText` | popup.js:184 | `成功加载 {n} 个模型`: the count in canonical decimal (`NatToString`, no leading zero) between the fixed parts, reading back as the number of models |
| `Popup.ModelSelect.Value` | popup.js:191 | `select.value`: the selected option's value, or "" when no option is selected |
| `Popup.ModelSelect.Clear` | popup.js:165 | `innerHTML = ''`: no options and nothing selected |
| `Popup.ModelSelect.ShowPlaceholder` | popup.js:131 | `innerHTML = '<option value="">…</option>'`: exactly one placeholder option, selected, with the empty value |
| `Popup.ModelSelect.SetValue` | popup.js:189 | The first option with the value is selected; with no such option nothing is selected and the value reads "" |
| `Popup.ModelSelect.Append` | popup.js:178 | The option goes at the end; a select with nothing selected selects its first option |
| `Popup.ModelSelect.SetSelectedModel` | popup.js:187-203 | A saved model becomes the value. If no option has it, exactly one "not found" option with its name is appended first. With no saved model, the first model is selected |
| `Popup.ModelSelect.Populate` | popup.js:163-185 | An empty list leaves exactly one placeholder and the download hint. Otherwise: one option per model in list order, valued by name and labelled with its size; then the saved model's selection (one extra option only when the list lacks it); and the "loaded N models" status |
| `Popup.ErrorText` | popup.js:263 | A `TypeError` reads as the cannot-connect text; any other error reads as its message |
| `Popup.TestOutcome` | popup.js:251-264 | Success exactly on an ok, decoded response, counting the models (0 when absent). An ok body that cannot be read fails with its `ErrorText`. 403 gives the permission text. Another non-ok status gives `连接失败: {status}`. A `TypeError` gives the cannot-connect text |
| `Popup.TestBanner` | popup.js:253-264 | The success status reports the model count; a failure is prefixed `连接失败: ` |
| `Popup.TestUrl` | popup.js:241 | The trimmed URL field, or the default URL when the field is blank |
| `Popup.ModelsOutcome` | popup.js:136-155 | The models of an ok, decoded response (none when absent). A non-ok response gives `HTTP {status}: {statusText}`. A failed fetch, or an ok body that cannot be read, gives its `ErrorText` |
| `Popup.TranslateOutcome` | popup.js:338-365 | Success exactly when the reply is a successful one, carrying its translation. An undelivered message gives `连接错误: ` with the runtime error. A missing reply, or one with an empty error, gives "翻译失败" |
| `Popup.NoticeError` | popup.js:460 | An absent error is rendered as "undefined" |
| `Popup.ResultPane.InnerHtml` | popup.js:361 | An escaped pane holds each character of its text escaped on its own: `&`, `<`, `>`, `"` and `'` become entities and a newline becomes `<br>` |
| `Popup.EscapedPaneIsSafe` | popup.js:353-361 | What the popup assigns to `innerHTML` has no markup but `<br>`, and it reads as exactly the translation |
| `Popup.PopupPage.Load` | popup.js:64-83 | The URL, target language and prompt fields and the saved model come from storage with the popup's defaults; nothing else changes |
| `Popup.PopupPage.Save` | popup.js:85-109 | Storage becomes `SaveSettings` of the form, and the status becomes `SaveBanner`. The fields do not change |
| `Popup.PopupPage.LoadModels` | popup.js:119-161 | From the stored URL: on failure, the "加载失败" placeholder and a load-failed status. On an empty list, the no-models placeholder and hint. Otherwise the listing and selection of `Populate`: one option per model in order, then a not-found option for a saved model missing from the list (and nothing else), with the saved model selected, or the first model when none is saved. In every case the refresh button is restored |
| `Popup.PopupPage.CheckConnection` | popup.js:272-286 | The indicator is connected exactly when the stored URL answered with an ok status |
| `Popup.PopupPage.TestConnection` | popup.js:232-270 | The status is `TestBanner` of the outcome for the form's URL. The indicator is connected exactly on success. The test button is restored |
| `Popup.PopupPage.TranslateText` | popup.js:316-373 | A blank input only shows "请输入要翻译的文本" and sends nothing. Otherwise: exactly the trimmed text is sent; a success puts the translation in an escaped pane; a failure shows `翻译失败: ` and the message as plain text; and the translate button is restored |
| `Popup.PopupPage.GetSelectedText` | popup.js:375-403 | A non-empty reply fills the input box. An empty or missing reply leaves the box and shows "not found". An undelivered message shows the failure |
| `Popup.PopupPage.TranslationComplete` | popup.js:441-464 | Success shows the escaped translation and the done status; failure shows `翻译失败: ` and the error as plain text |
| `Content.ResultText` | content.js:87-92 | The translation on success; otherwise `翻译失败: ` followed by the error, or by "未知错误" when there is no reply or the error is empty |
| `Content.FailureTextIsActionable` | content.js:91 | A failure text is never empty and never the pending placeholder |
| `Content.Clamp` | content.js:231-232 | The position is at least 0, at most `limit` whenever `limit` is non-negative, and unchanged when it is already inside. A negative position or a negative limit gives 0; a position past a non-negative limit gives the limit |
| `Content.ClampMonotone` | content.js:219-232 | Moving the mouse further never moves the popup back |
| `Content.AnchoredSourceMarkupAsWritten` | content.js:122-130 | The selected text goes into the popup's markup character for character |
| `Content.SelectedTagBecomesMarkup` | content.js:124 | A selected text "<b>" reaches the page as a tag |
| `Content.AnchoredSourceMarkup` | content.js:122-130 | The selected text escaped with the popup's chain renders as text only and reads as the selection |
| `Content.PopupKind.SourceHtml` | content.js:124 | (corrected; see Findings) The source line of an anchored popup is safe markup that reads as the selected text |
| `Content.TranslationPopup.constructor` | content.js:103-105 | A new popup is unpinned, not being dragged, and shows "翻译中..." |
| `Content.TranslationPopup.ActionText` | content.js:349-350 | Copy and speak act exactly when the result is non-empty and not the placeholder, and they act on the result |
| `Content.TranslationPopup.TogglePin` | content.js:323 | The pin flag is negated; the result, the position and the drag state do not change |
| `Content.TranslationPopup.DragStart` | content.js:188-212 | A press on a button changes nothing. Otherwise dragging starts from the mouse position and the popup's corner, and the popup is placed at that corner |
| `Content.TranslationPopup.Drag` | content.js:214-238 | While dragging, each coordinate is the clamped start plus the mouse's movement, so it stays at least 0 and inside the viewport whenever the popup fits; otherwise nothing changes |
| `Content.TranslationPopup.DragEnd` | content.js:240-243 | Dragging stops; the position, pin, text and recorded drag origin stay as they were |
| `Content.TranslationManager.constructor` | content.js:3-8 | No button, no popup, empty selected text |
| `Content.TranslationManager.AtMostOne` | content.js:44-155 | The page holds at most one translate button and at most one popup |
| `Content.TranslationManager.HideTranslateButton` | content.js:72-77 | Afterwards there is no button. Without one, nothing changes |
| `Content.TranslationManager.ShowTranslateButton` | content.js:44-70 | The old button goes before the new one comes, so the page holds exactly one |
| `Content.TranslationManager.HideTranslationPopup` | content.js:148-155 | Afterwards there is no popup. Without one, nothing changes |
| `Content.TranslationManager.HandleTextSelectionAsWritten` | content.js:21-32 | A selection that is blank once trimmed removes the button and the popup, pinned or not. Any other selection becomes the trimmed selected text and gets a button |
| `Content.TranslationManager.HandleTextSelection` | content.js:21-32 | As written, except that a blank selection leaves a pinned popup open (see Findings) |
| `Content.TranslationManager.ShowTranslationPopup` | content.js:96-139 | Any old popup goes. A fresh, unpinned, pending popup anchored on the selected text takes its place |
| `Content.TranslationManager.TranslateSelectedText` | content.js:79-94 | The button goes, an unpinned popup anchored to the selected text opens showing the pending text, and exactly the selected text is sent for translation |
| `Content.TranslationManager.ShowTranslationPopupForContextMenu` | content.js:247-421 | Any old popup goes. A fresh, unpinned, pending centred popup takes its place, and exactly `text` is sent for translation |
| `Content.TranslationManager.HandleMessage` | content.js:34-42 | `getSelectedText` is answered with the selected text and changes nothing. `translateSelection` stores the text, leaves the button alone and opens an unpinned centred popup showing the pending text, and sends exactly that text |
| `Content.TranslationManager.HandleOutsideClick` | content.js:157-174 | The popup closes exactly when there is one, the click is outside it, and it is not pinned; otherwise nothing changes |
| `Content.TranslationManager.DeliverTranslation` | content.js:141-146 | The result area of the popup on the page shows `ResultText` of the reply; its pin, position and drag state do not change |
| `Content.PinDefeatedByBlankSelection` | content.js:12-13 | A pinned centred popup, as written, closes on the next mouse-up or key-up that leaves no selection |
| `Content.PinSurvivesBlankSelection` | content.js:157-161 | With the pin respected, the same event leaves the pinned popup open |
| `Content.TranslationManager.TogglePin` | content.js:320-344 | The pin flag of the centred popup is negated; its text, position and drag state do not change |

## Left out

- Network I/O: `fetch`, `response.json()` and the `AbortSignal.timeout` mechanics. Their outcomes are inputs.
- The `Origin` and `Accept` headers of every request.
- `chrome.storage`, `chrome.runtime`, `chrome.tabs` and `chrome.contextMenus` are foreign APIs:
  - storage is a map;
  - a message's delivery is an input;
  - the sent messages are recorded in a `sent` field;
  - `tabs.query` and the menu's registration are not modelled.
- `BuildRequest` leaves out the `temperature` (0.1) and `top_p` (0.9) sampling options, because they are floating point.
- `FormatSize` keeps only the integer part of the size in its unit. The first decimal of `toFixed(1)` is floating point and is not modelled.
- `FormatSize` assumes sizes are absent or non-negative integers. Negative or fractional sizes are not modelled.
- Timers are not modelled: the status auto-hide, the copy feedback, and the delayed `checkConnection` after save and `loadModels` after a test.
- Clipboard writing and speech synthesis are foreign APIs. Only their guard, `ActionText`, is modelled.
- Event-listener registration is not modelled.
  - The `removeEventListener` calls with fresh arrow functions never remove anything, so outside-click handlers accumulate.
  - Every stale handler only re-checks the current popup, and closing is idempotent, so one `HandleOutsideClick` models them all.
  - `handleOutsideClick` and `handleOutsideClickForDraggable` differ only in console logging.
- Styling, SVG icons, hover handlers, the button and popup positions derived from `getBoundingClientRect`, and console logging are not modelled. `DragStart` and `Drag` receive geometry as integer parameters.
- `Content.TranslationPopup.Drag`: pixel positions are integers here, while the source computes them in floating point.
- The intermediate texts shown while a request is pending are not modelled: the popup's "翻译中，请稍候..." in the result area, and the disabled "翻译中..." / "⏳" / "测试中..." buttons. Only the state after the reply is stated.
- A missing DOM element (the early returns when `getElementById` finds nothing) is not modelled. Every element is present.
- `JsStrings.ReplaceAll` has no contract of its own. Its behaviour is stated by `ReplaceAllAppend`, `ReplaceAllOne` and `ReplaceAllAbsent`, and through them by the escape-chain lemmas.
- `Content.TranslationManager.HandleTextSelection` keeps a pinned popup open on a blank selection (see Findings). `HandleTextSelectionAsWritten` keeps the behaviour as written.
- `Content.TranslationManager.ShowTranslationPopup` uses the escaped source line (see Findings), not the unescaped one as written.

## Findings

| source | as written | input that shows it | evidently intended | confidence | as-written member | corrected member |
|---|---|---|---|---|---|---|
| content.js:29-30 | On a mouse-up or key-up that leaves no selection, `handleTextSelection` hides the popup without looking at `isPinned`, so a pinned popup closes on an ordinary click elsewhere | Pin the centred popup, then click on the page outside it without selecting text | A pinned popup stays open, as `handleOutsideClick` (content.js:157-161) already ensures for clicks | not executed | `Content.PinDefeatedByBlankSelection` | `Content.PinSurvivesBlankSelection` |
| content.js:124 | The anchored popup puts `selectedText` into its `innerHTML` template without escaping, so the page's selected text is parsed as markup | Selecting the text `<b>` puts a `<b>` tag into the popup | Escape the text as the toolbar popup does for its result (popup.js:353-359), so that the source line renders as text | not executed | `Content.SelectedTagBecomesMarkup` | `Content.AnchoredSourceMarkup` |

=== FILE: background.dfy ===
/**
 * The background worker: it answers `translate` messages by calling the
 * local Ollama service, reports the service's status, and forwards
 * context-menu clicks to the page. Every call to the service is a parameter
 * here (a function from the request to its HTTP outcome), and so is the
 * stored configuration.
 */
module Background {
  import opened JsStrings
  import opened Protocol

  /** The defaults `chrome.storage.sync.get` falls back to in this context. */
  const DefaultConfig := Config(
    DefaultUrl, "qwen2.5:latest", "zh-CN",
    "请将以下文本翻译成中文，只返回翻译结果，不要添加任何解释：")

  /** What stands between the prompt template and the quoted text. */
  const PromptSeparator := "\n\n\""

  /** The prompt: the template, a blank line, then the text in double
      quotes. */
  function BuildPrompt(template: string, text: string): (prompt: string)
    ensures StartsWith(prompt, template + PromptSeparator)
    ensures |prompt| == |template| + |PromptSeparator| + |text| + 1
    ensures prompt[|template| + |PromptSeparator|..|prompt| - 1] == text
    ensures prompt[|prompt| - 1] == '"'
  {
    var p := template + PromptSeparator + text + "\"";
    assert p[..|template| + |PromptSeparator|] == template + PromptSeparator;
    p
  }

  /** Reads the quoted text back out of a prompt built on `template`. */
  function QuotedText(template: string, prompt: string): Option<string> {
    var head := template + PromptSeparator;
    if StartsWith(prompt, head) && |prompt| > |head| && prompt[|prompt| - 1] == '"' then
      Some(prompt[|head|..|prompt| - 1])
    else
      None
  }

  /** The text to translate can always be recovered from the prompt, so the
      prompt carries it unaltered. */
  lemma PromptCarriesText(template: string, text: string)
    ensures QuotedText(template, BuildPrompt(template, text)) == Some(text)
  {
  }

  const MaxTokens := 1000

  /** The POST /api/generate call: where it goes and the JSON body it
      carries (the floating-point sampling options are not modelled). */
  datatype GenerateRequest = GenerateRequest(url: string, model: string, prompt: string, stream: bool, maxTokens: nat)

  function BuildRequest(config: Config, text: string): (req: GenerateRequest)
    ensures req.url == config.ollamaUrl + "/api/generate"
    ensures req.model == config.model
    ensures QuotedText(config.prompt, req.prompt) == Some(text)
    ensures !req.stream && req.maxTokens == MaxTokens
  {
    PromptCarriesText(config.prompt, text);
    GenerateRequest(config.ollamaUrl + "/api/generate", config.model,
                    BuildPrompt(config.prompt, text), false, MaxTokens)
  }

  const NotFoundPrefix := "模型未找到，请执行: ollama pull "
  const BadRequestText := "请求参数错误"
  const InternalErrorText := "Ollama服务内部错误，请检查模型是否正常加载"
  const RequestFailedPrefix := "请求失败: "

  /** A status the message table has an entry for. */
  predicate InStatusTable(status: nat) {
    status == 400 || status == 403 || status == 404 || status == 500
  }

  /** The message for a non-ok HTTP status of POST /api/generate. */
  function StatusMessage(status: nat, model: string): (message: string)
    ensures status == 403 ==> message == PermissionHelp && Contains(message, OriginsVariable)
    ensures status == 404 ==> StartsWith(message, NotFoundPrefix)
                              && message[|NotFoundPrefix|..] == model
    ensures status == 400 ==> message == BadRequestText
    ensures status == 500 ==> message == InternalErrorText
    ensures !InStatusTable(status) ==>
              && message == RequestFailedPrefix + NatToString(status)
              && StartsWith(message, RequestFailedPrefix)
              && IsDigits(message[|RequestFailedPrefix|..])
              && ParseDigits(message[|RequestFailedPrefix|..]) == status
  {
    if status == 403 then PermissionHelpNamesOrigins(); PermissionHelp
    else if status == 404 then NotFoundPrefix + model
    else if status == 400 then BadRequestText
    else if status == 500 then InternalErrorText
    else
      var m := RequestFailedPrefix + NatToString(status);
      assert m[|RequestFailedPrefix|..] == NatToString(status);
      ParseNatToString(status);
      m
  }

  /** Different statuses give different messages: the table loses nothing
      about which status the service returned. */
  lemma StatusMessageInjective(s1: nat, s2: nat, model: string)
    requires s1 != s2
    ensures StatusMessage(s1, model) != StatusMessage(s2, model)
  {
    var m1, m2 := StatusMessage(s1, model), StatusMessage(s2, model);
    if InStatusTable(s1) || InStatusTable(s2) {
      assert m1[0] != m2[0] || m1[2] != m2[2] by {
        assert PermissionHelp[0] == PermissionHeader[0] == PermissionTitle[0] == '权';
        assert (NotFoundPrefix + model)[0] == '模';
        assert RequestFailedPrefix[2] == '失';
        if !InStatusTable(s1) { assert m1[2] == '失'; }
        if !InStatusTable(s2) { assert m2[2] == '失'; }
      }
    }
  }

  const MalformedResponse := "API返回数据格式错误"

  /** `if (!data.response) throw ...; return data.response.trim()`: an
      absent, empty or falsy field is a format error; a truthy value that is
      not a string makes `trim` throw a `TypeError`. */
  function ReadResponse(field: ResponseField): (r: Result<string, JsError>)
    ensures r.Success? <==> field.Str? && field.text != ""
    ensures r.Success? ==> r.value == Trim(field.text) && IsTrimmed(r.value)
    ensures field.NonString? && field.truthy ==> r.Failure? && r.error.name == "TypeError"
    ensures r.Failure? && !(field.NonString? && field.truthy) ==>
              r.error == PlainError(MalformedResponse)
  {
    match field
    case Str(t) =>
      if t == "" then Failure(PlainError(MalformedResponse)) else Success(Trim(t))
    case NonString(truthy) =>
      if truthy then Failure(JsError("TypeError", "data.response.trim is not a function"))
      else Failure(PlainError(MalformedResponse))
    case Missing => Failure(PlainError(MalformedResponse))
  }

  /** The `catch` of `translateText`: a `TypeError` (what `fetch` throws when
      it cannot connect) becomes the cannot-connect error; any other error
      is rethrown as it is. */
  function Reclassify(e: JsError): (r: JsError)
    ensures e.name == "TypeError" ==> r == PlainError(CannotConnect)
    ensures e.name != "TypeError" ==> r == e
    ensures r.name != "TypeError"
  {
    if e.name == "TypeError" then PlainError(CannotConnect) else e
  }

  /** `TranslationService.translateText`: one call to the service with the
      request built from the configuration and the text. */
  function TranslateText(config: Config, text: string,
                         generate: GenerateRequest -> HttpOutcome<GenerateBody>): (r: Result<string, JsError>)
    ensures var out := generate(BuildRequest(config, text));
      r.Success? <==> (&& out.Responded? && IsOk(out.status) && out.body.Parsed?
                       && out.body.body.response.Str? && out.body.body.response.text != "")
    ensures var out := generate(BuildRequest(config, text));
      r.Success? ==> r.value == Trim(out.body.body.response.text)
    ensures var out := generate(BuildRequest(config, text));
      out.Responded? && !IsOk(out.status) ==>
        r == Failure(PlainError(StatusMessage(out.status, config.model)))
    ensures var out := generate(BuildRequest(config, text));
      out.Responded? && IsOk(out.status) && out.body.Parsed? ==>
        var field := out.body.body.response;
        && (field.Missing? || field == Str("") || field == NonString(false) ==>
              r == Failure(PlainError(MalformedResponse)))
        && (field == NonString(true) ==> r == Failure(PlainError(CannotConnect)))
    ensures var out := generate(BuildRequest(config, text));
      out.Responded? && IsOk(out.status) && out.body.Unparseable? ==>
        r == Failure(Reclassify(out.body.err))
    ensures var out := generate(BuildRequest(config, text));
      out.FetchFailed? && out.err.name == "TypeError" ==> r == Failure(PlainError(CannotConnect))
    ensures var out := generate(BuildRequest(config, text));
      out.FetchFailed? && out.err.name != "TypeError" ==> r == Failure(out.err)
    ensures r.Failure? ==> r.error.name != "TypeError"
  {
    var req := BuildRequest(config, text);
    var attempt :=
      match generate(req)
      case FetchFailed(e) => Failure(e)
      case Responded(status, _, body) =>
        if !IsOk(status) then Failure(PlainError(StatusMessage(status, req.model)))
        else match body
          case Unparseable(e) => Failure(e)
          case Parsed(b) => ReadResponse(b.response);
    match attempt
    case Success(t) => attempt
    case Failure(e) => Failure(Reclassify(e))
  }

  /** `MessageHandler.handleTranslateRequest`: exactly one reply, carrying
      the translation or the error's message. */
  function HandleTranslateRequest(config: Config, text: string,
                                  generate: GenerateRequest -> HttpOutcome<GenerateBody>): (reply: TranslateReply)
    ensures var r := TranslateText(config, text, generate);
      && (reply.Translated? <==> r.Success?)
      && (r.Success? ==> reply.translation == r.value)
      && (r.Failure? ==> reply.error == r.error.message)
  {
    match TranslateText(config, text, generate)
    case Success(t) => Translated(t)
    case Failure(e) => TranslateFailed(e.message)
  }

  /** The background listener answers `translate` and nothing else; the
      configuration is what storage holds, with this context's defaults. */
  function HandleMessage(request: Request, storage: Storage,
                         generate: GenerateRequest -> HttpOutcome<GenerateBody>): (reply: Option<TranslateReply>)
    ensures reply.Some? <==> request.Translate?
    ensures request.Translate? ==>
              reply.value == HandleTranslateRequest(LoadConfig(storage, DefaultConfig), request.text, generate)
  {
    match request
    case Translate(text) => Some(HandleTranslateRequest(LoadConfig(storage, DefaultConfig), text, generate))
    case _ => None
  }

  /** With nothing stored, a translation goes to the default service with
      the default model. */
  lemma DefaultRequest(text: string)
    ensures var req := BuildRequest(LoadConfig(map[], DefaultConfig), text);
      && req.url == DefaultUrl + "/api/generate" && req.model == "qwen2.5:latest"
      && QuotedText(DefaultConfig.prompt, req.prompt) == Some(text)
  {
  }

  /** A service that knows one prompt: it answers it with a padded
      translation and anything else with a server error. */
  function OnePromptService(req: GenerateRequest): HttpOutcome<GenerateBody> {
    if req.prompt == "Translate:\n\n\"hello\"" then
      Responded(200, "OK", Parsed(GenerateBody(Str(" 你好\n"))))
    else
      Responded(500, "Internal Server Error", Parsed(GenerateBody(Missing)))
  }

  /** The service's answer, trimmed, is the bare translation. */
  lemma OnePromptAnswerTrimmed()
    ensures Trim(" 你好\n") == "你好"
  {
    var answer := " 你好\n";
    assert Trim(answer) == Trim(answer[1..]);
    assert answer[1..] == "你好\n" && Trim("你好\n") == Trim("你好");
  }

  /** The request built for "hello" carries exactly the prompt the service
      knows. */
  lemma OnePromptServiceAnswers()
    ensures OnePromptService(BuildRequest(Config(DefaultUrl, "m", "zh-CN", "Translate:"), "hello"))
            == Responded(200, "OK", Parsed(GenerateBody(Str(" 你好\n"))))
  {
    assert BuildRequest(Config(DefaultUrl, "m", "zh-CN", "Translate:"), "hello").prompt
           == "Translate:\n\n\"hello\"";
  }

  /** End to end on that service: the request carries the text in the
      prompt, and the reply is the service's answer, trimmed. */
  lemma TranslateExample()
    ensures HandleTranslateRequest(Config(DefaultUrl, "m", "zh-CN", "Translate:"), "hello",
                                   OnePromptService)
            == Translated("你好")
  {
    OnePromptServiceAnswers();
    OnePromptAnswerTrimmed();
  }

  /** The record `checkOllamaStatus` returns. */
  datatype ConnectionStatus =
    | Connected(modelCount: nat, modelExists: bool, currentModel: string, availableModels: seq<string>)
    | Disconnected(error: string, details: string)

  const TimeoutText := "连接超时"
  const TimeoutDetails := "请检查Ollama服务是否正在运行"

  /** The `catch` of `checkOllamaStatus`. */
  function StatusOfError(e: JsError): (st: ConnectionStatus)
    ensures st.Disconnected?
    ensures e.name == "TimeoutError" ==> st == Disconnected(TimeoutText, TimeoutDetails)
    ensures e.name != "TimeoutError" ==> st == Disconnected(e.message, CannotConnect)
  {
    if e.name == "TimeoutError" then Disconnected(TimeoutText, TimeoutDetails)
    else Disconnected(e.message, CannotConnect)
  }

  /** `checkOllamaStatus`: GET /api/tags with a 5-second abort signal; when
      the signal fires, the fetch (or the body read) fails with a
      `TimeoutError`. */
  function CheckOllamaStatus(config: Config, fetchTags: string -> HttpOutcome<TagsBody>): (st: ConnectionStatus)
    ensures var out := fetchTags(TagsUrl(config.ollamaUrl));
      st.Connected? <==> out.Responded? && IsOk(out.status) && out.body.Parsed?
    ensures var out := fetchTags(TagsUrl(config.ollamaUrl));
      st.Connected? ==>
        var models := ModelsOf(out.body.body);
        && st.modelCount == |models| == |st.availableModels|
        && (forall i :: 0 <= i < |models| ==> st.availableModels[i] == models[i].name)
        && (st.modelExists <==> config.model in st.availableModels)
        && st.currentModel == config.model
    ensures var out := fetchTags(TagsUrl(config.ollamaUrl));
      out.Responded? && !IsOk(out.status) ==>
        st == Disconnected("HTTP " + NatToString(out.status), out.statusText)
    ensures var out := fetchTags(TagsUrl(config.ollamaUrl));
      out.FetchFailed? ==> st == StatusOfError(out.err)
    ensures var out := fetchTags(TagsUrl(config.ollamaUrl));
      out.Responded? && IsOk(out.status) && out.body.Unparseable? ==> st == StatusOfError(out.body.err)
    ensures var out := fetchTags(TagsUrl(config.ollamaUrl));
      out.FetchFailed? && out.err.name == "TimeoutError" ==>
        st == Disconnected(TimeoutText, TimeoutDetails)
  {
    match fetchTags(TagsUrl(config.ollamaUrl))
    case FetchFailed(e) => StatusOfError(e)
    case Responded(status, statusText, body) =>
      if !IsOk(status) then Disconnected("HTTP " + NatToString(status), statusText)
      else match body
        case Unparseable(e) => StatusOfError(e)
        case Parsed(b) =>
          var models := ModelsOf(b);
          SomeNamedIffInNames(models, config.model);
          Connected(|models|, SomeNamed(models, config.model), config.model, Names(models))
  }

  /** The record `testOllamaConnection` returns. */
  datatype TestResult = ModelsListed(models: seq<ModelInfo>) | TestFailed(error: string)

  /** `testOllamaConnection`: GET /api/tags without a timeout; errors are
      reported with their own message, not rewritten. */
  function TestOllamaConnection(config: Config, fetchTags: string -> HttpOutcome<TagsBody>): (r: TestResult)
    ensures var out := fetchTags(TagsUrl(config.ollamaUrl));
      r.ModelsListed? <==> out.Responded? && IsOk(out.status) && out.body.Parsed?
    ensures var out := fetchTags(TagsUrl(config.ollamaUrl));
      r.ModelsListed? ==> r.models == ModelsOf(out.body.body)
    ensures var out := fetchTags(TagsUrl(config.ollamaUrl));
      out.Responded? && !IsOk(out.status) ==> r == TestFailed("HTTP " + NatToString(out.status))
    ensures var out := fetchTags(TagsUrl(config.ollamaUrl));
      out.Responded? && IsOk(out.status) && out.body.Unparseable? ==> r == TestFailed(out.body.err.message)
    ensures var out := fetchTags(TagsUrl(config.ollamaUrl));
      out.FetchFailed? ==> r == TestFailed(out.err.message)
  {
    match fetchTags(TagsUrl(config.ollamaUrl))
    case FetchFailed(e) => TestFailed(e.message)
    case Responded(status, _, body) =>
      if !IsOk(status) then TestFailed("HTTP " + NatToString(status))
      else match body
        case Unparseable(e) => TestFailed(e.message)
        case Parsed(b) => ModelsListed(ModelsOf(b))
  }

  const MenuItemId := "translate-selection"

  /** What `chrome.contextMenus.onClicked` reports: the item and the selected
      text, if any. */
  datatype MenuClick = MenuClick(menuItemId: string, selectionText: Option<string>)

  /** A message sent to the content script of one tab. */
  datatype TabMessage = TabMessage(tabId: int, request: Request)

  /** `handleContextMenuClick`: the selection goes to the tab as a
      `translateSelection` message only for the extension's own item and a
      non-empty selection. */
  function HandleContextMenuClick(info: MenuClick, tabId: int): (sent: Option<TabMessage>)
    ensures sent.Some? <==>
              info.menuItemId == MenuItemId && info.selectionText.Some? && info.selectionText.value != ""
    ensures sent.Some? ==> sent.value == TabMessage(tabId, TranslateSelection(info.selectionText.value))
  {
    if info.menuItemId == MenuItemId && info.selectionText.Some? && info.selectionText.value != "" then
      Some(TabMessage(tabId, TranslateSelection(info.selectionText.value)))
    else
      None
  }
}

=== FILE: content.dfy ===
/**
 * The overlay the content script keeps on each page: a floating translate
 * button over the selection, and one translation popup, either anchored
 * under the selection or centred (and draggable and pinnable) when opened
 * from the context menu.
 */
module Content {
  import opened JsStrings
  import opened Protocol
  import opened HtmlEscape

  /** The text the result area holds until the reply arrives. */
  const PendingText := "翻译中..."
  const FailurePrefix := "翻译失败: "
  const UnknownError := "未知错误"

  /** What the reply callback writes into the result area: the translation,
      or the failure text with the reply's error (`response?.error ||
      '未知错误'`: a missing reply, or an empty error, reads as unknown). */
  function ResultText(reply: Option<TranslateReply>): (text: string)
    ensures reply.Some? && reply.value.Translated? ==> text == reply.value.translation
    ensures reply.None? ==> text == FailurePrefix + UnknownError
    ensures reply.Some? && reply.value.TranslateFailed? ==>
              && (reply.value.error != "" ==> text == FailurePrefix + reply.value.error)
              && (reply.value.error == "" ==> text == FailurePrefix + UnknownError)
  {
    match reply
    case Some(Translated(t)) => t
    case Some(TranslateFailed(e)) => FailurePrefix + (if e != "" then e else UnknownError)
    case None => FailurePrefix + UnknownError
  }

  /** A failure never reads as the pending placeholder, so the copy and
      speak buttons stay usable after a failure. */
  lemma FailureTextIsActionable(reply: Option<TranslateReply>)
    requires !(reply.Some? && reply.value.Translated?)
    ensures ResultText(reply) != "" && ResultText(reply) != PendingText
  {
    var text := ResultText(reply);
    assert text[0] == FailurePrefix[0] == '翻';
    assert text[1] == '译' && text[2] == '失';
  }

  /** `Math.max(0, Math.min(pos, limit))`: a drag coordinate kept inside
      the viewport, where `limit` is the viewport size minus the popup's. */
  function Clamp(pos: int, limit: int): (r: int)
    ensures r >= 0
    ensures limit >= 0 ==> r <= limit
    ensures 0 <= pos <= limit ==> r == pos
    ensures r == pos || r == 0 || r == limit
    ensures pos < 0 || limit < 0 ==> r == 0
    ensures 0 <= limit < pos ==> r == limit
  {
    if pos < limit then (if pos < 0 then 0 else pos)
    else (if limit < 0 then 0 else limit)
  }

  /** Clamping is monotone: a mouse further right never puts the popup
      further left. */
  lemma ClampMonotone(p: int, q: int, limit: int)
    requires p <= q
    ensures Clamp(p, limit) <= Clamp(q, limit)
  {
  }

  /** The source text as `showTranslationPopup` inserts it: straight into
      the `innerHTML` template. */
  function AnchoredSourceMarkupAsWritten(source: string): (markup: string)
    ensures |markup| == |source|
    ensures forall i :: 0 <= i < |source| ==> markup[i] == source[i]
  {
    source
  }

  /** A selected text that holds a tag reaches the page as markup. */
  lemma SelectedTagBecomesMarkup()
    ensures !TagFree(AnchoredSourceMarkupAsWritten("<b>"))
  {
    var m := AnchoredSourceMarkupAsWritten("<b>");
    assert m[0] == '<' && m[1] == 'b';
    assert !StartsWith(m[0..], "<br>");
  }

  /** The source text escaped with the same chain the toolbar popup uses:
      it renders as text and line breaks only, and reads as the source. */
  function AnchoredSourceMarkup(source: string): (markup: string)
    ensures SafeMarkup(markup)
    ensures Unescape(markup) == source
  {
    EscapeHtmlIsSafe(source);
    UnescapeEscapeHtml(source);
    EscapeHtml(source)
  }

  /** Where the popup shows: under the selection, showing the selected
      text; or centred, for the context menu, with pin, copy and speak
      buttons and a drag header. */
  datatype PopupKind = Anchored(source: string) | Centered
  {
    /** The markup of the source line of an anchored popup. */
    function SourceHtml(): (html: string)
      requires Anchored?
      ensures SafeMarkup(html) && Unescape(html) == source
    {
      AnchoredSourceMarkup(source)
    }
  }

  /** A popup element: its kind, its pinned flag, the text of its result
      area, its position once dragged, and the state of its drag handler. */
  class TranslationPopup {
    const kind: PopupKind
    var isPinned: bool
    var resultText: string
    var left: int
    var top: int
    var isDragging: bool
    var startX: int
    var startY: int
    var elementX: int
    var elementY: int

    /** A new popup: unpinned, result pending, not being dragged. */
    constructor(kind: PopupKind)
      ensures this.kind == kind && !isPinned && resultText == PendingText && !isDragging
    {
      this.kind := kind;
      isPinned := false;
      resultText := PendingText;
      isDragging := false;
    }

    /** The text the copy and speak buttons act on: the result, unless it
        is empty or still the placeholder. */
    function ActionText(): (text: Option<string>)
      reads this
      ensures text.Some? <==> resultText != "" && resultText != PendingText
      ensures text.Some? ==> text.value == resultText
    {
      if resultText != "" && resultText != PendingText then Some(resultText) else None
    }

    /** The pin button flips the flag, and nothing else. */
    method TogglePin()
      modifies this
      ensures isPinned == !old(isPinned)
      ensures unchanged(this`resultText, this`left, this`top, this`isDragging,
                        this`startX, this`startY, this`elementX, this`elementY)
    {
      isPinned := !isPinned;
    }

    /** `dragStart`: a press on a button does not start a drag; otherwise
        the mouse position and the popup's on-screen corner are recorded and the
        popup is placed there explicitly. */
    method DragStart(onButton: bool, clientX: int, clientY: int, rectLeft: int, rectTop: int)
      modifies this
      ensures onButton ==> unchanged(this)
      ensures !onButton ==>
                && isDragging && startX == clientX && startY == clientY
                && elementX == rectLeft && elementY == rectTop
                && left == rectLeft && top == rectTop
      ensures unchanged(this`isPinned, this`resultText)
    {
      if onButton {
        return;
      }
      isDragging := true;
      startX, startY := clientX, clientY;
      elementX, elementY := rectLeft, rectTop;
      left, top := elementX, elementY;
    }

    /** `drag`: while dragging, the popup follows the mouse, clamped so
        that it stays inside the viewport whenever it fits. */
    method Drag(clientX: int, clientY: int, innerWidth: int, innerHeight: int, width: int, height: int)
      modifies this
      ensures !old(isDragging) ==> unchanged(this)
      ensures old(isDragging) ==>
                && left == Clamp(elementX + (clientX - startX), innerWidth - width)
                && top == Clamp(elementY + (clientY - startY), innerHeight - height)
      ensures old(isDragging) ==>
                && 0 <= left && 0 <= top
                && (width <= innerWidth ==> left + width <= innerWidth)
                && (height <= innerHeight ==> top + height <= innerHeight)
      ensures unchanged(this`isDragging, this`startX, this`startY, this`elementX, this`elementY)
      ensures unchanged(this`isPinned, this`resultText)
    {
      if isDragging {
        var newX := elementX + (clientX - startX);
        var newY := elementY + (clientY - startY);
        left := Clamp(newX, innerWidth - width);
        top := Clamp(newY, innerHeight - height);
      }
    }

    /** `dragEnd`: the drag stops, the popup stays where it is. */
    method DragEnd()
      modifies this
      ensures !isDragging
      ensures unchanged(this`left, this`top, this`isPinned, this`resultText,
                        this`startX, this`startY, this`elementX, this`elementY)
    {
      isDragging := false;
    }
  }

  /** The `TranslationManager` of a page. Besides its three fields it keeps
      what the page's document holds (how many translate buttons, which
      popups) and the translate requests sent to the background worker. */
  class TranslationManager {
    var translateButton: bool
    var translationPopup: TranslationPopup?
    var selectedText: string
    ghost var pageButtons: nat
    ghost var pagePopups: set<TranslationPopup>
    var sent: seq<Request>

    /** The document holds exactly the button and the popup the fields
        point to: at most one of each. */
    ghost predicate Valid()
      reads this
    {
      && pageButtons == (if translateButton then 1 else 0)
      && pagePopups == (if translationPopup == null then {} else {translationPopup})
    }

    constructor()
      ensures Valid() && !translateButton && translationPopup == null && selectedText == ""
      ensures sent == []
    {
      translateButton := false;
      translationPopup := null;
      selectedText := "";
      pageButtons := 0;
      pagePopups := {};
      sent := [];
    }

    /** At most one button and at most one popup are on the page. */
    lemma AtMostOne()
      requires Valid()
      ensures pageButtons <= 1 && |pagePopups| <= 1
    {
    }

    /** `hideTranslateButton`: removes the button if there is one. */
    method HideTranslateButton()
      requires Valid()
      modifies this
      ensures Valid() && !translateButton
      ensures !old(translateButton) ==> unchanged(this)
      ensures unchanged(this`translationPopup, this`selectedText, this`pagePopups, this`sent)
    {
      if translateButton {
        translateButton := false;
        pageButtons := pageButtons - 1;
      }
    }

    /** `showTranslateButton`: replaces any button by a new one. */
    method ShowTranslateButton()
      requires Valid()
      modifies this
      ensures Valid() && translateButton && pageButtons == 1
      ensures unchanged(this`translationPopup, this`selectedText, this`pagePopups, this`sent)
    {
      HideTranslateButton();
      translateButton := true;
      pageButtons := pageButtons + 1;
    }

    /** `hideTranslationPopup`: removes the popup if there is one. */
    method HideTranslationPopup()
      requires Valid()
      modifies this
      ensures Valid() && translationPopup == null && pagePopups == {}
      ensures old(translationPopup) == null ==> unchanged(this)
      ensures unchanged(this`translateButton, this`pageButtons, this`selectedText, this`sent)
    {
      if translationPopup != null {
        translationPopup := null;
        pagePopups := {};
      }
    }

    /** `handleTextSelection` as written: a selection that is blank once
        trimmed removes the button and the popup, pinned or not; any other
        is remembered, trimmed, and gets a fresh button. */
    method HandleTextSelectionAsWritten(selection: string)
      requires Valid()
      modifies this
      ensures Valid()
      ensures AllWhitespace(selection) ==>
                && !translateButton && translationPopup == null
                && selectedText == old(selectedText)
      ensures !AllWhitespace(selection) ==>
                && translateButton && selectedText == Trim(selection) && IsTrimmed(selectedText)
                && translationPopup == old(translationPopup)
      ensures unchanged(this`sent)
    {
      var text := Trim(selection);
      if |text| > 0 {
        selectedText := text;
        ShowTranslateButton();
      } else {
        HideTranslateButton();
        HideTranslationPopup();
      }
    }

    /** `handleTextSelection` with the pin respected: a blank selection
        removes the button, and the popup only when it is not pinned. */
    method HandleTextSelection(selection: string)
      requires Valid()
      modifies this
      ensures Valid()
      ensures AllWhitespace(selection) ==>
                && !translateButton && selectedText == old(selectedText)
                && (old(translationPopup) != null && old(translationPopup.isPinned) ==>
                      translationPopup == old(translationPopup))
                && (old(translationPopup) == null || !old(translationPopup.isPinned) ==>
                      translationPopup == null)
      ensures !AllWhitespace(selection) ==>
                && translateButton && selectedText == Trim(selection) && IsTrimmed(selectedText)
                && translationPopup == old(translationPopup)
      ensures unchanged(this`sent)
    {
      var text := Trim(selection);
      if |text| > 0 {
        selectedText := text;
        ShowTranslateButton();
      } else {
        HideTranslateButton();
        if translationPopup == null || !translationPopup.isPinned {
          HideTranslationPopup();
        }
      }
    }

    /** `showTranslationPopup`: replaces any popup by a new anchored one
        showing the selected text. */
    method ShowTranslationPopup()
      requires Valid()
      modifies this
      ensures Valid() && translationPopup != null && fresh(translationPopup)
      ensures translationPopup.kind == Anchored(selectedText)
      ensures !translationPopup.isPinned && translationPopup.resultText == PendingText
      ensures unchanged(this`translateButton, this`pageButtons, this`selectedText, this`sent)
    {
      HideTranslationPopup();
      var popup := new TranslationPopup(Anchored(selectedText));
      translationPopup := popup;
      pagePopups := pagePopups + {popup};
    }

    /** A click on the translate button: the button goes, an anchored popup
        opens, and the selected text is sent for translation. */
    method TranslateSelectedText()
      requires Valid()
      modifies this
      ensures Valid() && !translateButton
      ensures translationPopup != null && fresh(translationPopup)
      ensures translationPopup.kind == Anchored(selectedText) && !translationPopup.isPinned
      ensures translationPopup.resultText == PendingText
      ensures sent == old(sent) + [Translate(selectedText)]
      ensures selectedText == old(selectedText)
    {
      HideTranslateButton();
      ShowTranslationPopup();
      sent := sent + [Translate(selectedText)];
    }

    /** `showTranslationPopupForContextMenu`: replaces any popup by a new
        centred one and sends `text` for translation. */
    method ShowTranslationPopupForContextMenu(text: string)
      requires Valid()
      modifies this
      ensures Valid() && translationPopup != null && fresh(translationPopup)
      ensures translationPopup.kind == Centered
      ensures !translationPopup.isPinned && translationPopup.resultText == PendingText
      ensures sent == old(sent) + [Translate(text)]
      ensures unchanged(this`translateButton, this`pageButtons, this`selectedText)
    {
      HideTranslationPopup();
      var popup := new TranslationPopup(Centered);
      translationPopup := popup;
      pagePopups := pagePopups + {popup};
      sent := sent + [Translate(text)];
    }

    /** `handleMessage`: `getSelectedText` is answered with the selected
        text; `translateSelection` remembers the text and opens the centred
        popup for it; any other action is not for this page. */
    method HandleMessage(request: Request) returns (reply: Option<string>)
      requires Valid()
      modifies this
      ensures Valid()
      ensures request.GetSelectedText? ==> reply == Some(old(selectedText)) && unchanged(this)
      ensures request.TranslateSelection? ==>
                && reply.None? && selectedText == request.text
                && translationPopup != null && fresh(translationPopup)
                && translationPopup.kind == Centered && !translationPopup.isPinned
                && translationPopup.resultText == PendingText
                && translateButton == old(translateButton) && pageButtons == old(pageButtons)
                && sent == old(sent) + [Translate(request.text)]
      ensures request.Translate? ==> reply.None? && unchanged(this)
    {
      match request {
        case GetSelectedText =>
          reply := Some(selectedText);
        case TranslateSelection(text) =>
          selectedText := text;
          ShowTranslationPopupForContextMenu(text);
          reply := None;
        case Translate(_) =>
          reply := None;
      }
    }

    /** A click on the page: it closes the popup only when it lands
        outside it and the popup is not pinned. */
    method HandleOutsideClick(insidePopup: bool)
      requires Valid()
      modifies this
      ensures Valid()
      ensures old(translationPopup) != null && !insidePopup && !old(translationPopup.isPinned) ==>
                translationPopup == null
      ensures old(translationPopup) == null || insidePopup || old(translationPopup.isPinned) ==>
                unchanged(this)
      ensures unchanged(this`translateButton, this`pageButtons, this`selectedText, this`sent)
    {
      if translationPopup != null && !insidePopup && !translationPopup.isPinned {
        HideTranslationPopup();
      }
    }

    /** The reply to a translate request: the result area of the popup on
        the page, if any, shows the translation or the failure. */
    method DeliverTranslation(reply: Option<TranslateReply>)
      requires Valid()
      modifies translationPopup
      ensures translationPopup != null ==> translationPopup.resultText == ResultText(reply)
      ensures translationPopup != null ==>
                unchanged(translationPopup`isPinned, translationPopup`left, translationPopup`top,
                          translationPopup`isDragging, translationPopup`startX, translationPopup`startY,
                          translationPopup`elementX, translationPopup`elementY)
    {
      if translationPopup != null {
        translationPopup.resultText := ResultText(reply);
      }
    }

    /** The pin button of the popup on the page. */
    method TogglePin()
      requires Valid() && translationPopup != null && translationPopup.kind.Centered?
      modifies translationPopup
      ensures translationPopup.isPinned == !old(translationPopup.isPinned)
      ensures unchanged(translationPopup`resultText, translationPopup`left, translationPopup`top,
                        translationPopup`isDragging, translationPopup`startX, translationPopup`startY,
                        translationPopup`elementX, translationPopup`elementY)
    {
      translationPopup.TogglePin();
    }
  }

  /** A pinned popup, as written, still closes on the first mouse or key
      event that leaves no selection. */
  method PinDefeatedByBlankSelection() returns (closed: bool)
    ensures closed
  {
    var page := new TranslationManager();
    page.ShowTranslationPopupForContextMenu("hello");
    page.TogglePin();
    page.HandleTextSelectionAsWritten("");
    closed := page.translationPopup == null;
  }

  /** With the pin respected, the same events leave the pinned popup open. */
  method PinSurvivesBlankSelection() returns (open: bool)
    ensures open
  {
    var page := new TranslationManager();
    page.ShowTranslationPopupForContextMenu("hello");
    page.TogglePin();
    var popup := page.translationPopup;
    page.HandleTextSelection("");
    open := page.translationPopup == popup && popup != null && popup.isPinned;
  }
}

=== FILE: html_escape.dfy ===
/**
 * The transform the toolbar popup applies to a translation before it assigns
 * it to `innerHTML`: escape `&`, `<`, `>`, `"` and `'` as entities, then turn
 * each newline into a `<br>` tag.
 */
module HtmlEscape {
  import opened JsStrings

  /** One global replace: every `pattern` becomes `replacement`. */
  datatype Rule = Rule(pattern: char, replacement: string)

  /** The replaces of the chain, in the order they are applied: `&` first,
      so that the entities made by later steps are not escaped again, and
      the newline last, so that the `<br>` it makes is kept as markup. */
  const EscapeRules: seq<Rule> := [
    Rule('&', "&amp;"),
    Rule('<', "&lt;"),
    Rule('>', "&gt;"),
    Rule('"', "&quot;"),
    Rule('\'', "&#39;"),
    Rule('\n', "<br>")
  ]

  /** Applies the replaces one after another, each to the whole output of
      the one before. */
  function ApplyRules(s: string, rules: seq<Rule>): string
    decreases |rules|
  {
    if rules == [] then s
    else ApplyRules(ReplaceAll(s, rules[0].pattern, rules[0].replacement), rules[1..])
  }

  /** The replacement chain as written; it escapes each character on its
      own, as the per-character reference does. */
  function EscapeHtml(s: string): (html: string)
    ensures html == EscapePerChar(s)
  {
    EscapeHtmlIsPerChar(s);
    ApplyRules(s, EscapeRules)
  }

  /** What one input character becomes. */
  function EscapeChar(c: char): string {
    match c
    case '&' => "&amp;"
    case '<' => "&lt;"
    case '>' => "&gt;"
    case '"' => "&quot;"
    case '\'' => "&#39;"
    case '\n' => "<br>"
    case _ => [c]
  }

  /** A reference definition of the transform, one character at a time. */
  function EscapePerChar(s: string): string {
    if s == [] then [] else EscapeChar(s[0]) + EscapePerChar(s[1..])
  }

  /** Every `<` of `s` opens a `<br>` tag: `s` holds no other markup. */
  predicate TagFree(s: string) {
    forall i :: 0 <= i < |s| && s[i] == '<' ==> StartsWith(s[i..], "<br>")
  }

  /** Markup that can only render as text and line breaks: no tag but
      `<br>`, no quote that could close an attribute, no raw newline. */
  predicate SafeMarkup(s: string) {
    TagFree(s) && '"' !in s && '\'' !in s && '\n' !in s
  }

  /** What a browser shows for escaped text: the five entities decoded and
      each `<br>` read as a newline. */
  function Unescape(s: string): string
    decreases |s|
  {
    if s == [] then []
    else if s[0] == '&' && StartsWith(s, "&amp;") then "&" + Unescape(s[5..])
    else if s[0] == '&' && StartsWith(s, "&lt;") then "<" + Unescape(s[4..])
    else if s[0] == '&' && StartsWith(s, "&gt;") then ">" + Unescape(s[4..])
    else if s[0] == '&' && StartsWith(s, "&quot;") then "\"" + Unescape(s[6..])
    else if s[0] == '&' && StartsWith(s, "&#39;") then "'" + Unescape(s[5..])
    else if s[0] == '<' && StartsWith(s, "<br>") then "\n" + Unescape(s[4..])
    else [s[0]] + Unescape(s[1..])
  }

  /** Each replace works character by character, so the chain
      distributes over concatenation. */
  lemma {:induction false} ApplyRulesAppend(a: string, b: string, rules: seq<Rule>)
    ensures ApplyRules(a + b, rules) == ApplyRules(a, rules) + ApplyRules(b, rules)
    decreases |rules|
  {
    if rules != [] {
      var p, t := rules[0].pattern, rules[0].replacement;
      ReplaceAllAppend(a, b, p, t);
      ApplyRulesAppend(ReplaceAll(a, p, t), ReplaceAll(b, p, t), rules[1..]);
    }
  }

  /** A string that holds none of the patterns goes through unchanged. */
  lemma {:induction false} ApplyRulesAbsent(s: string, rules: seq<Rule>)
    requires forall i :: 0 <= i < |rules| ==> rules[i].pattern !in s
    ensures ApplyRules(s, rules) == s
    decreases |rules|
  {
    if rules != [] {
      ReplaceAllAbsent(s, rules[0].pattern, rules[0].replacement);
      ApplyRulesAbsent(s, rules[1..]);
    }
  }

  /** A single character is left alone by the rules before the first one
      whose pattern it is; that rule replaces it, and the rest of the chain
      then works on the replacement. */
  lemma {:induction false} ApplyRulesChar(c: char, rules: seq<Rule>, k: nat)
    requires k <= |rules|
    requires forall i :: 0 <= i < k ==> rules[i].pattern != c
    ensures k < |rules| && rules[k].pattern == c ==>
              ApplyRules([c], rules) == ApplyRules(rules[k].replacement, rules[k + 1..])
    ensures k == |rules| ==> ApplyRules([c], rules) == [c]
    decreases k
  {
    if rules != [] {
      ReplaceAllOne(c, rules[0].pattern, rules[0].replacement);
    }
    if k > 0 {
      ApplyRulesChar(c, rules[1..], k - 1);
      assert rules[1..][k - 1..] == rules[k..];
      if k < |rules| {
        assert rules[1..][k..] == rules[k + 1..];
      }
    }
  }

  /** A rule whose replacement holds none of the later patterns: the chain
      turns its character into exactly that replacement. */
  lemma ApplyRulesReplaced(c: char, rules: seq<Rule>, k: nat)
    requires k < |rules| && rules[k].pattern == c
    requires forall i :: 0 <= i < k ==> rules[i].pattern != c
    requires forall j :: k < j < |rules| ==> rules[j].pattern !in rules[k].replacement
    ensures ApplyRules([c], rules) == rules[k].replacement
  {
    ApplyRulesChar(c, rules, k);
    var later := rules[k + 1..];
    forall i | 0 <= i < |later|
      ensures later[i].pattern !in rules[k].replacement
    {
      assert later[i] == rules[k + 1 + i];
    }
    ApplyRulesAbsent(rules[k].replacement, later);
  }

  /** On one character the chain gives that character's escape: the steps
      before the character's own leave it alone, and no later step touches
      the entity it became. */
  lemma EscapeHtmlChar(c: char)
    ensures ApplyRules([c], EscapeRules) == EscapeChar(c)
  {
    if c in {'&', '<', '>'} {
      EscapeHtmlMarkupChar(c);
    } else if c in {'"', '\'', '\n'} {
      EscapeHtmlQuoteOrNewline(c);
    } else {
      ApplyRulesChar(c, EscapeRules, 6);
    }
  }

  /** The three markup characters the chain replaces. */
  lemma EscapeHtmlMarkupChar(c: char)
    requires c in {'&', '<', '>'}
    ensures ApplyRules([c], EscapeRules) == EscapeChar(c)
  {
    var R := EscapeRules;
    match c
    case '&' => ApplyRulesReplaced(c, R, 0);
    case '<' => ApplyRulesReplaced(c, R, 1);
    case '>' => ApplyRulesReplaced(c, R, 2);
  }

  /** The two quotes and the newline, which the chain replaces last. */
  lemma EscapeHtmlQuoteOrNewline(c: char)
    requires c in {'"', '\'', '\n'}
    ensures ApplyRules([c], EscapeRules) == EscapeChar(c)
  {
    var R := EscapeRules;
    match c
    case '"' => ApplyRulesReplaced(c, R, 3);
    case '\'' => ApplyRulesReplaced(c, R, 4);
    case '\n' => ApplyRulesReplaced(c, R, 5);
  }

  /** The chain as written equals the per-character reference. */
  lemma {:induction false} EscapeHtmlIsPerChar(s: string)
    ensures ApplyRules(s, EscapeRules) == EscapePerChar(s)
  {
    if s != [] {
      assert s == [s[0]] + s[1..];
      ApplyRulesAppend([s[0]], s[1..], EscapeRules);
      EscapeHtmlChar(s[0]);
      EscapeHtmlIsPerChar(s[1..]);
    }
  }

  lemma TagFreeAppend(a: string, b: string)
    requires TagFree(a) && TagFree(b)
    ensures TagFree(a + b)
  {
    var ab := a + b;
    forall i | 0 <= i < |ab| && ab[i] == '<'
      ensures StartsWith(ab[i..], "<br>")
    {
      if i < |a| {
        assert a[i] == '<';
        assert ab[i..][..4] == a[i..][..4];
      } else {
        assert ab[i..] == b[i - |a|..];
        assert b[i - |a|] == '<';
      }
    }
  }

  lemma EscapeCharTagFree(c: char)
    ensures TagFree(EscapeChar(c))
  {
    var e := EscapeChar(c);
    if c == '\n' {
      assert e[0..] == e && e[1] != '<' && e[2] != '<' && e[3] != '<';
    } else {
      assert '<' !in e;
    }
  }

  lemma {:induction false} EscapePerCharTagFree(s: string)
    ensures TagFree(EscapePerChar(s))
  {
    if s != [] {
      var e := EscapeChar(s[0]);
      EscapeCharTagFree(s[0]);
      EscapePerCharTagFree(s[1..]);
      TagFreeAppend(e, EscapePerChar(s[1..]));
    }
  }

  lemma EscapeCharNoQuotes(c: char)
    ensures var e := EscapeChar(c); '"' !in e && '\'' !in e && '\n' !in e
  {
  }

  lemma {:induction false} EscapePerCharNoQuotes(s: string)
    ensures var r := EscapePerChar(s); '"' !in r && '\'' !in r && '\n' !in r
  {
    if s != [] {
      EscapeCharNoQuotes(s[0]);
      EscapePerCharNoQuotes(s[1..]);
    }
  }

  /** The escaped text holds no markup but `<br>` tags: every `<` of the
      output opens a `<br>`, and neither a quote nor a raw newline is left. */
  lemma EscapeHtmlIsSafe(s: string)
    ensures SafeMarkup(EscapeHtml(s))
  {
    EscapePerCharTagFree(s);
    EscapePerCharNoQuotes(s);
  }

  /** Decoding an entity (or `<br>`) followed by anything gives its
      character back and goes on with the rest. */
  lemma UnescapeEntity(e: string, c: char, rest: string)
    requires e == EscapeChar(c) && |e| > 1
    ensures Unescape(e + rest) == [c] + Unescape(rest)
  {
    var s := e + rest;
    assert s[..|e|] == e && s[|e|..] == rest;
    assert s[0] == e[0] && s[1] == e[1];
    if StartsWith(s, "&amp;") { assert s[1] == 'a'; }
    if StartsWith(s, "&lt;") { assert s[1] == 'l'; }
    if StartsWith(s, "&gt;") { assert s[1] == 'g'; }
    if StartsWith(s, "&quot;") { assert s[1] == 'q'; }
    if StartsWith(s, "&#39;") { assert s[1] == '#'; }
  }

  /** A character the transform keeps is decoded as itself. */
  lemma UnescapeKept(c: char, rest: string)
    requires EscapeChar(c) == [c]
    ensures Unescape([c] + rest) == [c] + Unescape(rest)
  {
    var s := [c] + rest;
    assert s[0] == c && s[1..] == rest;
  }

  /** Decoding one escaped character followed by anything gives that
      character back and goes on with the rest. */
  lemma UnescapeEscapedChar(c: char, rest: string)
    ensures Unescape(EscapeChar(c) + rest) == [c] + Unescape(rest)
  {
    if |EscapeChar(c)| > 1 {
      UnescapeEntity(EscapeChar(c), c, rest);
    } else {
      UnescapeKept(c, rest);
    }
  }

  lemma {:induction false} UnescapePerChar(s: string)
    ensures Unescape(EscapePerChar(s)) == s
  {
    if s != [] {
      UnescapeEscapedChar(s[0], EscapePerChar(s[1..]));
      UnescapePerChar(s[1..]);
      assert s == [s[0]] + s[1..];
    }
  }

  /** Round trip: what the browser shows for the escaped translation is
      exactly the translation. */
  lemma UnescapeEscapeHtml(s: string)
    ensures Unescape(EscapeHtml(s)) == s
  {
    UnescapePerChar(s);
  }
}

=== FILE: js_strings.dfy ===
/**
 * String operations with the meaning JavaScript gives them, as the extension
 * uses them: `String.prototype.trim`, template interpolation of a number,
 * a global single-character `replace`, and prefix tests.
 */
module JsStrings {

  /** The characters `String.prototype.trim` removes: the ECMAScript
      WhiteSpace and LineTerminator code points. */
  predicate IsWhitespace(c: char) {
    || c == '\t' || c == '\n' || c == '\U{000B}' || c == '\U{000C}' || c == '\r'
    || c == ' ' || c == '\U{00A0}' || c == '\U{1680}'
    || ('\U{2000}' <= c <= '\U{200A}')
    || c == '\U{2028}' || c == '\U{2029}' || c == '\U{202F}' || c == '\U{205F}'
    || c == '\U{3000}' || c == '\U{FEFF}'
  }

  predicate AllWhitespace(s: string) {
    forall i :: 0 <= i < |s| ==> IsWhitespace(s[i])
  }

  /** `s` neither starts nor ends with a whitespace character. */
  predicate IsTrimmed(s: string) {
    s == [] || (!IsWhitespace(s[0]) && !IsWhitespace(s[|s| - 1]))
  }

  /** `String.prototype.trim`: drops whitespace from both ends. The
      result has no whitespace at either end, and it is empty exactly when
      `s` is all whitespace. */
  function Trim(s: string): (r: string)
    ensures |r| <= |s|
    ensures IsTrimmed(r)
    ensures r == [] <==> AllWhitespace(s)
    decreases |s|
  {
    if s == [] then []
    else if IsWhitespace(s[0]) then Trim(s[1..])
    else if IsWhitespace(s[|s| - 1]) then
      assert s[..|s| - 1][0] == s[0];
      Trim(s[..|s| - 1])
    else s
  }

  /** Where the part `trim` keeps starts in `s`. */
  ghost function TrimOffset(s: string): nat
    decreases |s|
  {
    if s == [] then 0
    else if IsWhitespace(s[0]) then 1 + TrimOffset(s[1..])
    else if IsWhitespace(s[|s| - 1]) then TrimOffset(s[..|s| - 1])
    else 0
  }

  /** `t` sits at offset `i` of `s`, with only whitespace before and after it. */
  ghost predicate WhitespaceAround(s: string, t: string, i: nat) {
    i + |t| <= |s| && t == s[i..i + |t|]
    && AllWhitespace(s[..i]) && AllWhitespace(s[i + |t|..])
  }

  lemma WhitespaceAroundFront(s: string, t: string, i: nat)
    requires s != [] && IsWhitespace(s[0]) && WhitespaceAround(s[1..], t, i)
    ensures WhitespaceAround(s, t, i + 1)
  {
    assert s[i + 1..i + 1 + |t|] == s[1..][i..i + |t|];
    assert s[..i + 1] == [s[0]] + s[1..][..i];
    assert s[i + 1 + |t|..] == s[1..][i + |t|..];
  }

  lemma WhitespaceAroundBack(s: string, t: string, i: nat)
    requires s != [] && IsWhitespace(s[|s| - 1]) && WhitespaceAround(s[..|s| - 1], t, i)
    ensures WhitespaceAround(s, t, i)
  {
    var u := s[..|s| - 1];
    assert s[i..i + |t|] == u[i..i + |t|];
    assert s[..i] == u[..i];
    assert s[i + |t|..] == u[i + |t|..] + [s[|s| - 1]];
  }

  /** What `trim` keeps is the middle of `s`: whitespace is all it drops,
      from either end. */
  lemma {:induction false} TrimIsMiddle(s: string)
    ensures WhitespaceAround(s, Trim(s), TrimOffset(s))
    decreases |s|
  {
    if s == [] {
    } else if IsWhitespace(s[0]) {
      TrimIsMiddle(s[1..]);
      WhitespaceAroundFront(s, Trim(s), TrimOffset(s[1..]));
    } else if IsWhitespace(s[|s| - 1]) {
      TrimIsMiddle(s[..|s| - 1]);
      WhitespaceAroundBack(s, Trim(s), TrimOffset(s[..|s| - 1]));
    } else {
      assert s[0..|s|] == s;
    }
  }

  /** Trimming a string that is already trimmed changes nothing, so a value
      that went through `trim` once comes back unchanged when trimmed again. */
  lemma TrimOfTrimmed(s: string)
    requires IsTrimmed(s)
    ensures Trim(s) == s
  {
  }

  predicate IsDigit(c: char) {
    '0' <= c <= '9'
  }

  predicate IsDigits(s: string) {
    forall i :: 0 <= i < |s| ==> IsDigit(s[i])
  }

  function DigitChar(d: nat): (c: char)
    requires d < 10
    ensures IsDigit(c) && (c as int) - ('0' as int) == d
  {
    ('0' as int + d) as char
  }

  /** The decimal text JavaScript produces when it interpolates a
      non-negative integer into a template (`${status}`). */
  function NatToString(n: nat): (r: string)
    ensures r != [] && IsDigits(r)
    ensures r[0] == '0' <==> n == 0
    ensures n == 0 ==> r == "0"
    decreases n
  {
    if n < 10 then [DigitChar(n)] else NatToString(n / 10) + [DigitChar(n % 10)]
  }

  /** Reads a string of decimal digits back as a number. */
  function ParseDigits(s: string): nat
    requires IsDigits(s)
  {
    if s == [] then 0
    else ParseDigits(s[..|s| - 1]) * 10 + ((s[|s| - 1] as int) - ('0' as int))
  }

  /** Reading the decimal text of `n` gives `n` back. */
  lemma {:induction false} ParseNatToString(n: nat)
    ensures ParseDigits(NatToString(n)) == n
    decreases n
  {
    var r := NatToString(n);
    if n >= 10 {
      ParseNatToString(n / 10);
      assert r[..|r| - 1] == NatToString(n / 10);
    }
  }

  /** Different numbers have different decimal texts. */
  lemma NatToStringInjective(a: nat, b: nat)
    ensures NatToString(a) == NatToString(b) ==> a == b
  {
    ParseNatToString(a);
    ParseNatToString(b);
  }

  predicate StartsWith(s: string, prefix: string) {
    |prefix| <= |s| && s[..|prefix|] == prefix
  }

  predicate OccursAt(s: string, part: string, i: nat) {
    i + |part| <= |s| && s[i..i + |part|] == part
  }

  ghost predicate Contains(s: string, part: string) {
    exists i: nat :: OccursAt(s, part, i)
  }

  /** `s.replace(/c/g, t)` for a pattern that is one literal character:
      every occurrence of `c` is replaced by `t`, every other character is
      kept, in order. */
  function ReplaceAll(s: string, c: char, t: string): (r: string)
  {
    if s == [] then []
    else (if s[0] == c then t else [s[0]]) + ReplaceAll(s[1..], c, t)
  }

  /** Replacing works character by character, so it distributes over
      concatenation. */
  lemma {:induction false} ReplaceAllAppend(a: string, b: string, c: char, t: string)
    ensures ReplaceAll(a + b, c, t) == ReplaceAll(a, c, t) + ReplaceAll(b, c, t)
  {
    if a != [] {
      var head := if a[0] == c then t else [a[0]];
      calc {
        ReplaceAll(a + b, c, t);
        { assert (a + b)[0] == a[0] && (a + b)[1..] == a[1..] + b; }
        head + ReplaceAll(a[1..] + b, c, t);
        { ReplaceAllAppend(a[1..], b, c, t); }
        head + (ReplaceAll(a[1..], c, t) + ReplaceAll(b, c, t));
      }
    } else {
      assert a + b == b;
    }
  }

  /** On a one-character string, replacing is a test of that character. */
  lemma ReplaceAllOne(c: char, d: char, t: string)
    ensures ReplaceAll([c], d, t) == if c == d then t else [c]
  {
    assert [c][1..] == [];
  }

  /** A string without the pattern character is left as it is. */
  lemma {:induction false} ReplaceAllAbsent(s: string, c: char, t: string)
    requires c !in s
    ensures ReplaceAll(s, c, t) == s
  {
    if s != [] {
      assert s == [s[0]] + s[1..];
      ReplaceAllAbsent(s[1..], c, t);
    }
  }
}

=== FILE: popup.dfy ===
/**
 * The toolbar popup: the settings form and its validation, the model
 * selector, the byte-size labels of the models, the manual translation box
 * and the connection test. The DOM elements are fields of `PopupPage` and
 * `ModelSelect`; the stored settings, the replies of the background worker
 * and the calls to the service are parameters.
 */
module Popup {
  import opened JsStrings
  import opened Protocol
  import opened HtmlEscape

  /** The defaults the popup reads the stored settings with; its prompt
      also asks to keep the formatting and line breaks. */
  const DefaultConfig := Config(
    DefaultUrl, "qwen2.5:latest", "zh-CN",
    "请将以下文本翻译成中文，保持原文的格式和换行符，只返回翻译结果，不要添加任何解释：")

  const DefaultTargetLanguage := "zh-CN"
  const IncompleteSettings := "请填写完整的配置信息"

  /** The four form fields as `save` reads them. */
  datatype FormValues = FormValues(ollamaUrl: string, model: string, targetLanguage: string, prompt: string)

  /** A configuration `save` accepts and stores. */
  predicate SavableConfig(c: Config) {
    && c.ollamaUrl != [] && IsTrimmed(c.ollamaUrl)
    && c.model != []
    && c.targetLanguage != []
    && c.prompt != [] && IsTrimmed(c.prompt)
  }

  /** The configuration `save` builds from the form, or the error it
      throws: URL and prompt are trimmed, an empty target language falls
      back to the default, and an empty URL, model or prompt is refused. */
  function ValidateSettings(form: FormValues): (r: Result<Config, string>)
    ensures r.Failure? <==>
              AllWhitespace(form.ollamaUrl) || form.model == [] || AllWhitespace(form.prompt)
    ensures r.Failure? ==> r.error == IncompleteSettings
    ensures r.Success? ==>
              && SavableConfig(r.value)
              && r.value.ollamaUrl == Trim(form.ollamaUrl)
              && r.value.model == form.model
              && r.value.prompt == Trim(form.prompt)
              && (form.targetLanguage != [] ==> r.value.targetLanguage == form.targetLanguage)
              && (form.targetLanguage == [] ==> r.value.targetLanguage == DefaultTargetLanguage)
  {
    var c := Config(Trim(form.ollamaUrl), form.model,
                    if form.targetLanguage == [] then DefaultTargetLanguage else form.targetLanguage,
                    Trim(form.prompt));
    if c.ollamaUrl == [] || c.model == [] || c.prompt == [] then Failure(IncompleteSettings)
    else Success(c)
  }

  /** The form filled in with a configuration. */
  function FormOf(c: Config): FormValues {
    FormValues(c.ollamaUrl, c.model, c.targetLanguage, c.prompt)
  }

  /** A configuration `save` would store is accepted unchanged when it is
      submitted again. */
  lemma ValidateFormOf(c: Config)
    requires SavableConfig(c)
    ensures ValidateSettings(FormOf(c)) == Success(c)
  {
    TrimOfTrimmed(c.ollamaUrl);
    TrimOfTrimmed(c.prompt);
  }

  /** Validation is idempotent: what it builds from a form, it builds again
      from itself. */
  lemma ValidateSettingsIdempotent(form: FormValues)
    requires ValidateSettings(form).Success?
    ensures ValidateSettings(FormOf(ValidateSettings(form).value)) == ValidateSettings(form)
  {
    ValidateFormOf(ValidateSettings(form).value);
  }

  /** The storage after `save`: untouched when validation fails, otherwise
      holding the validated configuration, which then loads back as it
      was saved. */
  function SaveSettings(storage: Storage, form: FormValues): (stored: Storage)
    ensures ValidateSettings(form).Failure? ==> stored == storage
    ensures ValidateSettings(form).Success? ==>
              forall defaults :: LoadConfig(stored, defaults) == ValidateSettings(form).value
    ensures forall k :: k in storage ==> k in stored
    ensures forall k :: k in stored && k !in {UrlKey, ModelKey, TargetLanguageKey, PromptKey} ==>
              k in storage && stored[k] == storage[k]
  {
    match ValidateSettings(form)
    case Failure(_) => storage
    case Success(c) => StoreThenLoadAnyDefaults(storage, c); StoreConfig(storage, c)
  }

  /** The status line: its text and its `success`/`error`/`info` class. */
  datatype StatusKind = OkStatus | ErrorStatus | InfoStatus
  datatype Banner = Banner(kind: StatusKind, text: string)

  const SavedText := "配置保存成功"
  const SaveFailedPrefix := "保存配置失败: "

  /** The status `save` shows. */
  function SaveBanner(form: FormValues): (b: Banner)
    ensures b.kind == OkStatus <==> ValidateSettings(form).Success?
    ensures b.kind == OkStatus ==> b == Banner(OkStatus, SavedText)
    ensures b.kind != OkStatus ==> b == Banner(ErrorStatus, SaveFailedPrefix + IncompleteSettings)
  {
    match ValidateSettings(form)
    case Success(_) => Banner(OkStatus, SavedText)
    case Failure(e) => Banner(ErrorStatus, SaveFailedPrefix + e)
  }

  // ---------------------------------------------------------------------
  // Byte sizes

  const Units := ["B", "KB", "MB", "GB", "TB"]
  const LargestUnit := |Units| - 1

  function Pow1024(k: nat): (p: nat)
    ensures p >= 1
  {
    if k == 0 then 1 else 1024 * Pow1024(k - 1)
  }

  lemma {:induction false} Pow1024Monotone(i: nat, j: nat)
    requires i <= j
    ensures Pow1024(i) <= Pow1024(j)
    decreases j
  {
    if i < j {
      Pow1024Monotone(i, j - 1);
    }
  }

  /** Below the next power, so at most the power before it. */
  lemma Pow1024Below(k: nat, j: nat)
    requires Pow1024(j) < Pow1024(k + 1)
    ensures j <= k
  {
    if j > k {
      Pow1024Monotone(k + 1, j);
    }
  }

  lemma MulCancel(a: nat, x: nat, y: nat)
    requires a * x < a * y
    ensures x < y
  {
  }

  /** What `formatSize` shows: "未知大小", or a number and a unit. The
      number is kept as its integer part; the first decimal `toFixed(1)`
      adds is not modelled. */
  datatype SizeLabel = UnknownSize | Scaled(whole: nat, unitIndex: nat)

  /** `shown` is what `formatSize` shows for `bytes`: unknown for an absent
      or zero size; otherwise the largest unit (up to TB) the size reaches,
      and the integer part of the size in that unit. */
  predicate DescribesSize(bytes: Option<nat>, shown: SizeLabel) {
    match shown
    case UnknownSize => bytes.None? || bytes.value == 0
    case Scaled(whole, k) =>
      && bytes.Some? && bytes.value > 0
      && k <= LargestUnit
      && Pow1024(k) <= bytes.value
      && (k < LargestUnit ==> bytes.value < Pow1024(k + 1))
      && Pow1024(k) * whole <= bytes.value < Pow1024(k) * (whole + 1)
  }

  /** At most one label describes a size. */
  lemma DescribesSizeUnique(bytes: Option<nat>, l1: SizeLabel, l2: SizeLabel)
    requires DescribesSize(bytes, l1) && DescribesSize(bytes, l2)
    ensures l1 == l2
  {
    if l1.Scaled? && l2.Scaled? {
      var k1, k2 := l1.unitIndex, l2.unitIndex;
      if k1 < LargestUnit { Pow1024Below(k1, k2); }
      if k2 < LargestUnit { Pow1024Below(k2, k1); }
      var p := Pow1024(k1);
      MulCancel(p, l1.whole, l2.whole + 1);
      MulCancel(p, l2.whole, l1.whole + 1);
    }
  }

  /** A size under 1024 is shown in bytes, as it is. */
  lemma SmallSizeInBytes(b: nat, shown: SizeLabel)
    requires 0 < b < 1024 && DescribesSize(Some(b), shown)
    ensures shown == Scaled(b, 0)
  {
    DescribesSizeUnique(Some(b), shown, Scaled(b, 0));
  }

  /** A size of a tebibyte or more is shown in TB, the last unit. */
  lemma LargeSizeInTerabytes(b: nat, shown: SizeLabel)
    requires b >= Pow1024(LargestUnit) && DescribesSize(Some(b), shown)
    ensures shown.Scaled? && shown.unitIndex == LargestUnit
  {
    if shown.unitIndex < LargestUnit {
      Pow1024Monotone(shown.unitIndex + 1, LargestUnit);
    }
  }

  /** One division by 1024 keeps `size` the integer part of `b / scale`. */
  lemma ScaleStep(b: nat, scale: nat, size: nat)
    requires scale > 0
    requires scale * size <= b < scale * (size + 1)
    ensures scale * 1024 * (size / 1024) <= b < scale * 1024 * (size / 1024 + 1)
  {
    var q, r := size / 1024, size % 1024;
    MulSplit(scale, q, r);
    MulSplit(scale, q, r + 1);
    MulMonotone(scale, r + 1, 1024);
    MulSplit(scale, q + 1, 0);
  }

  lemma MulSplit(scale: nat, q: nat, r: nat)
    ensures scale * (1024 * q + r) == scale * 1024 * q + scale * r
  {
  }

  lemma MulMonotone(scale: nat, x: nat, y: nat)
    requires x <= y
    ensures scale * x <= scale * y
  {
  }

  /** `size` is the integer part of `b` counted in units of 1024^k. */
  predicate InUnit(b: nat, k: nat, size: nat) {
    Pow1024(k) * size <= b < Pow1024(k) * (size + 1)
  }

  /** A size of at least 1024 in one unit means the next unit is reached,
      and dividing by 1024 gives the integer part in that unit. */
  lemma NextUnit(b: nat, k: nat, size: nat)
    requires InUnit(b, k, size) && size >= 1024
    ensures Pow1024(k + 1) <= b && InUnit(b, k + 1, size / 1024)
  {
    var p := Pow1024(k);
    ScaleStep(b, p, size);
    MulMonotone(p, 1024, size);
  }

  /** A size under 1024 in one unit means the next unit is not reached. */
  lemma BelowNextUnit(b: nat, k: nat, size: nat)
    requires InUnit(b, k, size) && size < 1024
    ensures b < Pow1024(k + 1)
  {
    MulMonotone(Pow1024(k), size + 1, 1024);
  }

  /** `formatSize`: divides by 1024 while the size is at least 1024 and a
      larger unit is left. Dividing by a power of two is exact, so the
      integer part of the running size is tracked exactly. */
  method FormatSize(bytes: Option<nat>) returns (shown: SizeLabel)
    ensures DescribesSize(bytes, shown)
  {
    if bytes.None? || bytes.value == 0 {
      return UnknownSize;
    }
    var b := bytes.value;
    var size := b;
    var unitIndex := 0;
    while size >= 1024 && unitIndex < |Units| - 1
      invariant unitIndex <= LargestUnit
      invariant Pow1024(unitIndex) <= b
      invariant InUnit(b, unitIndex, size)
    {
      NextUnit(b, unitIndex, size);
      size := size / 1024;
      unitIndex := unitIndex + 1;
    }
    if unitIndex < LargestUnit {
      BelowNextUnit(b, unitIndex, size);
    }
    return Scaled(size, unitIndex);
  }

  // ---------------------------------------------------------------------
  // The model selector

  /** The text of an option: a model and its size, a saved model missing
      from the list (`name (未找到)`), or a placeholder message. */
  datatype OptionLabel =
    | Sized(name: string, size: SizeLabel)
    | NotFound(name: string)
    | Placeholder(text: string)

  datatype SelectOption = SelectOption(value: string, caption: OptionLabel)

  const LoadingText := "加载中..."
  const NoModelsText := "未找到模型"
  const LoadFailedText := "加载失败"
  const NoModelsHelp := "未找到任何模型，请先下载模型：ollama pull qwen2.5:7b"

  /** The option a `value` assignment selects: the first with that value,
      or -1 when there is none. */
  function IndexOfValue(options: seq<SelectOption>, v: string): (i: int)
    ensures -1 <= i < |options|
    ensures i >= 0 ==> options[i].value == v && forall j :: 0 <= j < i ==> options[j].value != v
    ensures i == -1 <==> forall j :: 0 <= j < |options| ==> options[j].value != v
  {
    if options == [] then -1
    else if options[0].value == v then 0
    else
      var k := IndexOfValue(options[1..], v);
      if k == -1 then -1 else k + 1
  }

  /** The options list the models, one per model, in order. */
  predicate ListsModels(options: seq<SelectOption>, models: seq<ModelInfo>) {
    && |options| == |models|
    && forall i :: 0 <= i < |models| ==>
         && options[i].value == models[i].name
         && options[i].caption.Sized?
         && options[i].caption.name == models[i].name
         && DescribesSize(models[i].size, options[i].caption.size)
  }

  /** Listing one more model appends its option. */
  lemma ListsModelsAppend(options: seq<SelectOption>, models: seq<ModelInfo>, i: nat, size: SizeLabel)
    requires i < |models| && ListsModels(options, models[..i])
    requires DescribesSize(models[i].size, size)
    ensures ListsModels(options + [SelectOption(models[i].name, Sized(models[i].name, size))], models[..i + 1])
  {
    assert models[..i + 1] == models[..i] + [models[i]];
  }

  /** A listing has an option for a name exactly when a model has it. */
  lemma ListedValues(options: seq<SelectOption>, models: seq<ModelInfo>, name: string)
    requires ListsModels(options, models)
    ensures IndexOfValue(options, name) >= 0 <==> SomeNamed(models, name)
  {
    if SomeNamed(models, name) {
      var j :| 0 <= j < |models| && models[j].name == name;
      assert options[j].value == name;
    }
  }

  const LoadedPrefix := "成功加载 "
  const LoadedSuffix := " 个模型"

  /** The status after a list was loaded: the number of models, in
      canonical decimal (no leading zero), between the two fixed parts;
      the number reads back. */
  function LoadedText(count: nat): (text: string)
    ensures text == LoadedPrefix + NatToString(count) + LoadedSuffix
    ensures |LoadedPrefix| + |LoadedSuffix| < |text|
    ensures StartsWith(text, LoadedPrefix)
    ensures text[|text| - |LoadedSuffix|..] == LoadedSuffix
    ensures var digits := text[|LoadedPrefix|..|text| - |LoadedSuffix|];
      IsDigits(digits) && ParseDigits(digits) == count
  {
    var digits := NatToString(count);
    var text := LoadedPrefix + digits + LoadedSuffix;
    assert text[..|LoadedPrefix|] == LoadedPrefix;
    assert text[|LoadedPrefix|..|text| - |LoadedSuffix|] == digits;
    assert text[|text| - |LoadedSuffix|..] == LoadedSuffix;
    ParseNatToString(count);
    text
  }

  /** The `<select id="model">` element: its options and the index of the
      selected one (-1 for none). */
  class ModelSelect {
    var options: seq<SelectOption>
    var selectedIndex: int

    ghost predicate Valid()
      reads this
    {
      -1 <= selectedIndex < |options|
    }

    constructor()
      ensures Valid() && options == [] && selectedIndex == -1
    {
      options := [];
      selectedIndex := -1;
    }

    /** `select.value`: the selected option's value, or "" when none is
        selected. */
    function Value(): (v: string)
      reads this
      requires Valid()
      ensures selectedIndex >= 0 ==> v == options[selectedIndex].value
      ensures selectedIndex == -1 ==> v == ""
    {
      if selectedIndex >= 0 then options[selectedIndex].value else ""
    }

    /** `select.value = v`: selects the first option with that value, and
        none when there is no such option. */
    method SetValue(v: string)
      requires Valid()
      modifies this
      ensures Valid() && options == old(options)
      ensures selectedIndex == IndexOfValue(options, v)
      ensures Value() == v || (Value() == "" && forall j :: 0 <= j < |options| ==> options[j].value != v)
    {
      selectedIndex := IndexOfValue(options, v);
    }

    /** `innerHTML = ''`. */
    method Clear()
      modifies this
      ensures Valid() && options == [] && selectedIndex == -1
    {
      options := [];
      selectedIndex := -1;
    }

    /** `innerHTML = '<option value="">text</option>'`. */
    method ShowPlaceholder(text: string)
      modifies this
      ensures Valid() && options == [SelectOption("", Placeholder(text))] && selectedIndex == 0
      ensures Value() == ""
    {
      options := [SelectOption("", Placeholder(text))];
      selectedIndex := 0;
    }

    /** `appendChild(option)`: a select that had no selected option selects
        its first one. */
    method Append(o: SelectOption)
      requires Valid()
      modifies this
      ensures Valid() && options == old(options) + [o]
      ensures old(selectedIndex) == -1 ==> selectedIndex == 0
      ensures old(selectedIndex) != -1 ==> selectedIndex == old(selectedIndex)
    {
      options := options + [o];
      if selectedIndex == -1 {
        selectedIndex := 0;
      }
    }

    /** `setSelectedModel`: the saved model (`currentModel`, "" when unset)
        is selected, after appending a "not found" option for it when the
        list lacks it; with no saved model the first model is selected. */
    method SetSelectedModel(models: seq<ModelInfo>, currentModel: string)
      requires Valid()
      modifies this
      ensures Valid()
      ensures currentModel != "" && IndexOfValue(old(options), currentModel) >= 0 ==>
                options == old(options) && selectedIndex == IndexOfValue(options, currentModel)
      ensures currentModel != "" && IndexOfValue(old(options), currentModel) == -1 ==>
                && options == old(options) + [SelectOption(currentModel, NotFound(currentModel))]
                && selectedIndex == |old(options)|
      ensures currentModel != "" ==> Value() == currentModel
      ensures currentModel == "" ==> options == old(options)
      ensures currentModel == "" && models != [] ==>
                selectedIndex == IndexOfValue(options, models[0].name)
      ensures currentModel == "" && models == [] ==> selectedIndex == old(selectedIndex)
    {
      if currentModel != "" {
        SetValue(currentModel);
        if Value() == "" {
          Append(SelectOption(currentModel, NotFound(currentModel)));
          SetValue(currentModel);
          assert options[|old(options)|].value == currentModel;
        }
      } else if |models| > 0 {
        SetValue(models[0].name);
      }
    }

    /** `populateModelSelect`: one option per model, in list order, then
        the saved model's selection; an empty list leaves only a
        placeholder and a hint to download a model. Returns the status it
        shows. */
    method Populate(models: seq<ModelInfo>, currentModel: string) returns (banner: Banner)
      requires Valid()
      modifies this
      ensures Valid()
      ensures models == [] ==>
                && options == [SelectOption("", Placeholder(NoModelsText))]
                && selectedIndex == 0
                && banner == Banner(InfoStatus, NoModelsHelp)
      ensures models != [] ==>
                && |models| <= |options|
                && ListsModels(options[..|models|], models)
                && banner == Banner(OkStatus, LoadedText(|models|))
      ensures models != [] && currentModel != "" ==>
                && Value() == currentModel
                && options[|models|..] ==
                     if SomeNamed(models, currentModel) then []
                     else [SelectOption(currentModel, NotFound(currentModel))]
      ensures models != [] && currentModel == "" ==>
                options == options[..|models|] && Value() == models[0].name
    {
      Clear();
      if models == [] {
        ShowPlaceholder(NoModelsText);
        return Banner(InfoStatus, NoModelsHelp);
      }
      var i := 0;
      while i < |models|
        invariant 0 <= i <= |models|
        invariant Valid()
        invariant ListsModels(options, models[..i])
        invariant selectedIndex == if i == 0 then -1 else 0
      {
        var size := FormatSize(models[i].size);
        ListsModelsAppend(options, models, i, size);
        Append(SelectOption(models[i].name, Sized(models[i].name, size)));
        i := i + 1;
      }
      assert models[..i] == models;
      ghost var listed := options;
      ListedValues(listed, models, currentModel);
      SetSelectedModel(models, currentModel);
      assert options[..|models|] == listed;
      return Banner(OkStatus, LoadedText(|models|));
    }
  }

  // ---------------------------------------------------------------------
  // Outcomes the popup classifies

  /** `error.name === 'TypeError' ? '无法连接到Ollama服务' : error.message`. */
  function ErrorText(e: JsError): (text: string)
    ensures e.name == "TypeError" ==> text == CannotConnect
    ensures e.name != "TypeError" ==> text == e.message
  {
    if e.name == "TypeError" then CannotConnect else e.message
  }

  const TestFailedPrefix := "连接失败: "

  /** `testConnection`: the number of models an ok response lists (0 when
      the field is absent), or the message of the error it throws or
      catches. */
  function TestOutcome(out: HttpOutcome<TagsBody>): (r: Result<nat, string>)
    ensures r.Success? <==> out.Responded? && IsOk(out.status) && out.body.Parsed?
    ensures r.Success? ==> r.value == |ModelsOf(out.body.body)|
    ensures out.Responded? && out.status == 403 ==> r == Failure(PermissionHelp)
    ensures out.Responded? && !IsOk(out.status) && out.status != 403 ==>
              r == Failure(TestFailedPrefix + NatToString(out.status))
    ensures out.Responded? && IsOk(out.status) && out.body.Unparseable? ==> r == Failure(ErrorText(out.body.err))
    ensures out.FetchFailed? && out.err.name == "TypeError" ==> r == Failure(CannotConnect)
    ensures out.FetchFailed? && out.err.name != "TypeError" ==> r == Failure(out.err.message)
  {
    match out
    case FetchFailed(e) => Failure(ErrorText(e))
    case Responded(status, _, body) =>
      if IsOk(status) then
        match body
        case Parsed(b) => Success(|ModelsOf(b)|)
        case Unparseable(e) => Failure(ErrorText(e))
      else if status == 403 then Failure(PermissionHelp)
      else Failure(TestFailedPrefix + NatToString(status))
  }

  /** The status `testConnection` shows for an outcome. */
  function TestBanner(r: Result<nat, string>): (b: Banner)
    ensures r.Success? ==> b == Banner(OkStatus, "连接成功！发现 " + NatToString(r.value) + " 个模型")
    ensures r.Failure? ==> b == Banner(ErrorStatus, TestFailedPrefix + r.error)
  {
    match r
    case Success(n) => Banner(OkStatus, "连接成功！发现 " + NatToString(n) + " 个模型")
    case Failure(m) => Banner(ErrorStatus, TestFailedPrefix + m)
  }

  /** The URL `testConnection` tries: the trimmed field, or the default
      when the field is blank. */
  function TestUrl(field: string): (url: string)
    ensures AllWhitespace(field) ==> url == DefaultUrl
    ensures !AllWhitespace(field) ==> url == Trim(field) && url != [] && IsTrimmed(url)
  {
    if Trim(field) == [] then DefaultUrl else Trim(field)
  }

  /** `loadModels`: the listed models, or the message of the error. */
  function ModelsOutcome(out: HttpOutcome<TagsBody>): (r: Result<seq<ModelInfo>, string>)
    ensures r.Success? <==> out.Responded? && IsOk(out.status) && out.body.Parsed?
    ensures r.Success? ==> r.value == ModelsOf(out.body.body)
    ensures out.Responded? && !IsOk(out.status) ==>
              r == Failure("HTTP " + NatToString(out.status) + ": " + out.statusText)
    ensures out.Responded? && IsOk(out.status) && out.body.Unparseable? ==> r == Failure(ErrorText(out.body.err))
    ensures out.FetchFailed? ==> r == Failure(ErrorText(out.err))
  {
    match out
    case FetchFailed(e) => Failure(ErrorText(e))
    case Responded(status, statusText, body) =>
      if !IsOk(status) then Failure("HTTP " + NatToString(status) + ": " + statusText)
      else match body
        case Parsed(b) => Success(ModelsOf(b))
        case Unparseable(e) => Failure(ErrorText(e))
  }

  const LoadModelsFailedPrefix := "加载模型列表失败: "
  const TranslateDone := "翻译完成"
  const TranslateFailedPrefix := "翻译失败: "
  const TranslateFailedDefault := "翻译失败"
  const ConnectionErrorPrefix := "连接错误: "

  /** `translateText` once the reply arrived: the translation it escapes
      into the result area, or the message of the error it throws. */
  function TranslateOutcome(delivery: Delivery<TranslateReply>): (r: Result<string, string>)
    ensures r.Success? <==>
              delivery.Delivered? && delivery.reply.Some? && delivery.reply.value.Translated?
    ensures r.Success? ==> r.value == delivery.reply.value.translation
    ensures delivery.Undelivered? ==> r == Failure(ConnectionErrorPrefix + delivery.lastError)
    ensures delivery == Delivered(None) ==> r == Failure(TranslateFailedDefault)
    ensures delivery.Delivered? && delivery.reply.Some? && delivery.reply.value.TranslateFailed? ==>
              && (delivery.reply.value.error != "" ==> r == Failure(delivery.reply.value.error))
              && (delivery.reply.value.error == "" ==> r == Failure(TranslateFailedDefault))
  {
    match delivery
    case Undelivered(m) => Failure(ConnectionErrorPrefix + m)
    case Delivered(None) => Failure(TranslateFailedDefault)
    case Delivered(Some(Translated(t))) => Success(t)
    case Delivered(Some(TranslateFailed(e))) =>
      Failure(if e == "" then TranslateFailedDefault else e)
  }

  /** A `translationComplete` message. */
  datatype CompletionNotice = CompletionNotice(success: bool, translation: string, error: Option<string>)

  /** `'...' + request.error`: an absent error reads "undefined". */
  function NoticeError(error: Option<string>): (text: string)
    ensures error.Some? ==> text == error.value
    ensures error.None? ==> text == "undefined"
  {
    match error
    case Some(e) => e
    case None => "undefined"
  }

  // ---------------------------------------------------------------------
  // The page

  datatype Button = Button(enabled: bool, caption: string)

  /** The result area: hidden, plain text (`textContent`), or a text put
      through the escape chain and assigned to `innerHTML`. */
  datatype ResultPane = Hidden | PlainText(text: string) | Escaped(source: string)
  {
    /** The markup an escaped pane holds. */
    function InnerHtml(): (html: string)
      requires Escaped?
      ensures html == EscapePerChar(source)
    {
      EscapeHtml(source)
    }
  }

  /** What the popup assigns to `innerHTML` can only render as text and
      line breaks, and it renders as exactly the text it escaped. */
  lemma EscapedPaneIsSafe(pane: ResultPane)
    requires pane.Escaped?
    ensures SafeMarkup(pane.InnerHtml())
    ensures Unescape(pane.InnerHtml()) == pane.source
  {
    EscapeHtmlIsSafe(pane.source);
    UnescapeEscapeHtml(pane.source);
  }

  const TranslateLabel := "翻译"
  const TestLabel := "测试连接"
  const RefreshLabel := "🔄"
  const EmptyInputText := "请输入要翻译的文本"
  const SelectionFetched := "已获取选中文本"
  const NoSelection := "未找到选中文本"
  const SelectionFailedPrefix := "获取选中文本失败: "

  /** The popup document: the form fields, the model selector, the input
      box, the buttons, the result area, the status line, the connection
      indicator (unset until first checked), and the messages it sent to
      the background worker. `currentModel` is the saved model, "" when
      unset. */
  class PopupPage {
    const modelSelect: ModelSelect
    var urlField: string
    var targetLanguageField: string
    var promptField: string
    var currentModel: string
    var inputText: string
    var translateButton: Button
    var testButton: Button
    var refreshButton: Button
    var result: ResultPane
    var status: Option<Banner>
    var connected: Option<bool>
    var sent: seq<Request>

    ghost predicate Valid()
      reads this, modelSelect
    {
      modelSelect.Valid()
    }

    constructor()
      ensures Valid() && fresh(modelSelect)
      ensures modelSelect.options == [] && sent == [] && status.None? && connected.None?
      ensures result == Hidden && inputText == ""
      ensures translateButton == Button(true, TranslateLabel) && testButton == Button(true, TestLabel)
    {
      modelSelect := new ModelSelect();
      urlField, targetLanguageField, promptField, currentModel, inputText := "", "", "", "", "";
      translateButton := Button(true, TranslateLabel);
      testButton := Button(true, TestLabel);
      refreshButton := Button(true, RefreshLabel);
      result := Hidden;
      status := None;
      connected := None;
      sent := [];
    }

    /** The form as `save` reads it; the model is the selector's value. */
    function Form(): FormValues
      reads this, modelSelect
      requires Valid()
    {
      FormValues(urlField, modelSelect.Value(), targetLanguageField, promptField)
    }

    /** `ConfigManager.load`: fills the fields from storage (with the
        popup's defaults) and remembers the saved model. */
    method Load(storage: Storage)
      requires Valid()
      modifies this
      ensures Valid()
      ensures var c := LoadConfig(storage, DefaultConfig);
        && urlField == c.ollamaUrl && targetLanguageField == c.targetLanguage
        && promptField == c.prompt && currentModel == c.model
      ensures unchanged(this`inputText, this`result, this`status, this`connected, this`sent,
                        this`translateButton, this`testButton, this`refreshButton)
    {
      var c := LoadConfig(storage, DefaultConfig);
      urlField := c.ollamaUrl;
      targetLanguageField := c.targetLanguage;
      promptField := c.prompt;
      currentModel := c.model;
    }

    /** `ConfigManager.save`: stores the validated form or nothing, and
        shows the outcome. */
    method Save(storage: Storage) returns (stored: Storage)
      requires Valid()
      modifies this
      ensures Valid()
      ensures stored == SaveSettings(storage, old(Form()))
      ensures status == Some(SaveBanner(old(Form())))
      ensures unchanged(this`urlField, this`targetLanguageField, this`promptField,
                        this`currentModel, this`inputText, this`result, this`connected,
                        this`sent, this`translateButton, this`testButton, this`refreshButton)
    {
      var form := Form();
      stored := SaveSettings(storage, form);
      status := Some(SaveBanner(form));
    }

    /** `loadModels`: fetches the list from the stored URL and fills the
        selector, or shows the failure; the refresh button is restored
        either way. */
    method LoadModels(storage: Storage, fetchTags: string -> HttpOutcome<TagsBody>)
      requires Valid()
      modifies this, modelSelect
      ensures Valid()
      ensures var r := ModelsOutcome(fetchTags(TagsUrl(Lookup(storage, UrlKey, DefaultUrl))));
        && (r.Failure? ==>
              && modelSelect.options == [SelectOption("", Placeholder(LoadFailedText))]
              && status == Some(Banner(ErrorStatus, LoadModelsFailedPrefix + r.error)))
        && (r.Success? && r.value == [] ==>
              && modelSelect.options == [SelectOption("", Placeholder(NoModelsText))]
              && status == Some(Banner(InfoStatus, NoModelsHelp)))
        && (r.Success? && r.value != [] ==>
              && |r.value| <= |modelSelect.options|
              && ListsModels(modelSelect.options[..|r.value|], r.value)
              && (currentModel != "" ==>
                    modelSelect.options[|r.value|..] ==
                      if SomeNamed(r.value, currentModel) then []
                      else [SelectOption(currentModel, NotFound(currentModel))])
              && (currentModel == "" ==> |modelSelect.options| == |r.value|)
              && status == Some(Banner(OkStatus, LoadedText(|r.value|)))
              && (currentModel != "" ==> modelSelect.Value() == currentModel)
              && (currentModel == "" ==> modelSelect.Value() == r.value[0].name))
      ensures refreshButton == Button(true, RefreshLabel)
      ensures unchanged(this`urlField, this`targetLanguageField, this`promptField,
                        this`currentModel, this`inputText, this`result, this`connected,
                        this`sent, this`translateButton, this`testButton)
    {
      modelSelect.ShowPlaceholder(LoadingText);
      var url := Lookup(storage, UrlKey, DefaultUrl);
      match ModelsOutcome(fetchTags(TagsUrl(url))) {
        case Success(models) =>
          var banner := modelSelect.Populate(models, currentModel);
          status := Some(banner);
        case Failure(message) =>
          modelSelect.ShowPlaceholder(LoadFailedText);
          status := Some(Banner(ErrorStatus, LoadModelsFailedPrefix + message));
      }
      refreshButton := Button(true, RefreshLabel);
    }

    /** `checkConnection`: the indicator shows whether the stored URL
        answered with an ok status. */
    method CheckConnection(storage: Storage, fetchTags: string -> HttpOutcome<TagsBody>)
      requires Valid()
      modifies this
      ensures Valid()
      ensures var out := fetchTags(TagsUrl(Lookup(storage, UrlKey, DefaultUrl)));
        connected == Some(out.Responded? && IsOk(out.status))
      ensures unchanged(this`urlField, this`targetLanguageField, this`promptField,
                        this`currentModel, this`inputText, this`result, this`status,
                        this`sent, this`refreshButton, this`translateButton, this`testButton)
    {
      var out := fetchTags(TagsUrl(Lookup(storage, UrlKey, DefaultUrl)));
      connected := Some(out.Responded? && IsOk(out.status));
    }

    /** `testConnection`: tries the URL in the form, shows the outcome, sets
        the indicator, and restores the button. */
    method TestConnection(fetchTags: string -> HttpOutcome<TagsBody>)
      requires Valid()
      modifies this
      ensures Valid()
      ensures var r := TestOutcome(fetchTags(TagsUrl(TestUrl(urlField))));
        && status == Some(TestBanner(r))
        && connected == Some(r.Success?)
      ensures testButton == Button(true, TestLabel)
      ensures unchanged(this`urlField, this`targetLanguageField, this`promptField,
                        this`currentModel, this`inputText, this`result, this`sent,
                        this`refreshButton, this`translateButton)
    {
      var r := TestOutcome(fetchTags(TagsUrl(TestUrl(urlField))));
      status := Some(TestBanner(r));
      connected := Some(r.Success?);
      testButton := Button(true, TestLabel);
    }

    /** `translateText`: a blank input only shows an error; otherwise the
        trimmed text is sent to the background worker, its reply is shown,
        and the button is restored. */
    method TranslateText(deliver: Request -> Delivery<TranslateReply>)
      requires Valid()
      modifies this
      ensures Valid()
      ensures AllWhitespace(old(inputText)) ==>
                && status == Some(Banner(ErrorStatus, EmptyInputText))
                && sent == old(sent) && result == old(result)
                && translateButton == old(translateButton)
      ensures !AllWhitespace(old(inputText)) ==>
                var text := Trim(old(inputText));
                var r := TranslateOutcome(deliver(Translate(text)));
                && sent == old(sent) + [Translate(text)]
                && translateButton == Button(true, TranslateLabel)
                && (r.Success? ==> result == Escaped(r.value)
                                   && status == Some(Banner(OkStatus, TranslateDone)))
                && (r.Failure? ==> result == PlainText(TranslateFailedPrefix + r.error)
                                   && status == Some(Banner(ErrorStatus, TranslateFailedPrefix + r.error)))
      ensures unchanged(this`urlField, this`targetLanguageField, this`promptField,
                        this`currentModel, this`inputText, this`connected, this`testButton,
                        this`refreshButton)
    {
      var text := Trim(inputText);
      if text == [] {
        status := Some(Banner(ErrorStatus, EmptyInputText));
        return;
      }
      sent := sent + [Translate(text)];
      var r := TranslateOutcome(deliver(Translate(text)));
      if r.Success? {
        result := Escaped(r.value);
        status := Some(Banner(OkStatus, TranslateDone));
      } else {
        result := PlainText(TranslateFailedPrefix + r.error);
        status := Some(Banner(ErrorStatus, TranslateFailedPrefix + r.error));
      }
      translateButton := Button(true, TranslateLabel);
    }

    /** `getSelectedText`: asks the page for its selection and copies a
        non-empty one into the input box. */
    method GetSelectedText(delivery: Delivery<string>)
      requires Valid()
      modifies this
      ensures Valid()
      ensures delivery.Delivered? && delivery.reply.Some? && delivery.reply.value != "" ==>
                inputText == delivery.reply.value && status == Some(Banner(OkStatus, SelectionFetched))
      ensures delivery.Delivered? && (delivery.reply.None? || delivery.reply.value == "") ==>
                inputText == old(inputText) && status == Some(Banner(InfoStatus, NoSelection))
      ensures delivery.Undelivered? ==>
                && inputText == old(inputText)
                && status == Some(Banner(ErrorStatus, SelectionFailedPrefix + ConnectionErrorPrefix + delivery.lastError))
      ensures unchanged(this`urlField, this`targetLanguageField, this`promptField,
                        this`currentModel, this`result, this`connected, this`sent,
                        this`translateButton, this`testButton, this`refreshButton)
    {
      match delivery
      case Undelivered(m) =>
        status := Some(Banner(ErrorStatus, SelectionFailedPrefix + ConnectionErrorPrefix + m));
      case Delivered(reply) =>
        if reply.Some? && reply.value != "" {
          inputText := reply.value;
          status := Some(Banner(OkStatus, SelectionFetched));
        } else {
          status := Some(Banner(InfoStatus, NoSelection));
        }
    }

    /** The `translationComplete` listener: shows the escaped translation,
        or the error. */
    method TranslationComplete(notice: CompletionNotice)
      requires Valid()
      modifies this
      ensures Valid()
      ensures notice.success ==>
                && result == Escaped(notice.translation)
                && status == Some(Banner(OkStatus, TranslateDone))
      ensures !notice.success ==>
                var message := TranslateFailedPrefix + NoticeError(notice.error);
                result == PlainText(message) && status == Some(Banner(ErrorStatus, message))
      ensures unchanged(this`urlField, this`targetLanguageField, this`promptField,
                        this`currentModel, this`inputText, this`connected, this`sent,
                        this`translateButton, this`testButton, this`refreshButton)
    {
      if notice.success {
        result := Escaped(notice.translation);
        status := Some(Banner(OkStatus, TranslateDone));
      } else {
        var message := TranslateFailedPrefix + NoticeError(notice.error);
        result := PlainText(message);
        status := Some(Banner(ErrorStatus, message));
      }
    }
  }
}

=== FILE: protocol.dfy ===
/**
 * What the three contexts of the extension (background worker, toolbar popup,
 * page overlay) exchange: stored settings, HTTP outcomes of calls to the
 * local Ollama service, and the messages passed between contexts.
 */
module Protocol {
  import opened JsStrings

  datatype Option<T> = None | Some(value: T)

  datatype Result<T, E> = Success(value: T) | Failure(error: E)

  /** A JavaScript error as a `catch` block sees it: its `name`
      ("TypeError", "TimeoutError", "SyntaxError", "Error", ...) and its
      `message`. */
  datatype JsError = JsError(name: string, message: string)

  /** `new Error(message)`. */
  function PlainError(message: string): JsError {
    JsError("Error", message)
  }

  /** What `await response.json()` produced. */
  datatype Decoded<B> = Parsed(body: B) | Unparseable(err: JsError)

  /** How one `fetch` ended: it threw (no connection, or the abort signal of
      a timeout fired), or a response arrived with a status, a status text
      and a body that decodes (or not) to a `B`. */
  datatype HttpOutcome<B> =
    | FetchFailed(err: JsError)
    | Responded(status: nat, statusText: string, body: Decoded<B>)

  /** `response.ok`. */
  predicate IsOk(status: nat) {
    200 <= status <= 299
  }

  /** One entry of the `models` array of GET /api/tags; `size` may be absent. */
  datatype ModelInfo = ModelInfo(name: string, size: Option<nat>)

  /** The decoded body of GET /api/tags; its `models` field may be absent. */
  datatype TagsBody = TagsBody(models: Option<seq<ModelInfo>>)

  /** `data.models || []`. */
  function ModelsOf(body: TagsBody): (models: seq<ModelInfo>)
    ensures body.models.Some? ==> models == body.models.value
    ensures body.models.None? ==> models == []
  {
    match body.models
    case Some(ms) => ms
    case None => []
  }

  /** `models.map(m => m.name)`. */
  function Names(models: seq<ModelInfo>): (names: seq<string>)
    ensures |names| == |models|
    ensures forall i :: 0 <= i < |models| ==> names[i] == models[i].name
  {
    if models == [] then [] else [models[0].name] + Names(models[1..])
  }

  /** `models.some(model => model.name === name)`. */
  function SomeNamed(models: seq<ModelInfo>, name: string): (found: bool)
    ensures found <==> exists i :: 0 <= i < |models| && models[i].name == name
  {
    if models == [] then false
    else models[0].name == name || SomeNamed(models[1..], name)
  }

  /** A model is named in the list exactly when its name is among the
      list's names. */
  lemma SomeNamedIffInNames(models: seq<ModelInfo>, name: string)
    ensures SomeNamed(models, name) <==> name in Names(models)
  {
    var names := Names(models);
    if name in names {
      var i :| 0 <= i < |names| && names[i] == name;
      assert models[i].name == name;
    }
  }

  /** The `response` field of the decoded body of POST /api/generate: absent,
      a string, or some other JSON value, truthy or not. */
  datatype ResponseField = Missing | Str(text: string) | NonString(truthy: bool)

  datatype GenerateBody = GenerateBody(response: ResponseField)

  /** The four stored settings. */
  datatype Config = Config(ollamaUrl: string, model: string, targetLanguage: string, prompt: string)

  /** `chrome.storage.sync` seen as a key-value map. */
  type Storage = map<string, string>

  const UrlKey := "ollamaUrl"
  const ModelKey := "model"
  const TargetLanguageKey := "targetLanguage"
  const PromptKey := "prompt"

  function Lookup(storage: Storage, key: string, default: string): (v: string)
    ensures key in storage ==> v == storage[key]
    ensures key !in storage ==> v == default
  {
    if key in storage then storage[key] else default
  }

  /** `chrome.storage.sync.get(defaults)`: each stored value, or the default
      for a key never stored. */
  function LoadConfig(storage: Storage, defaults: Config): (c: Config)
    ensures c.ollamaUrl == Lookup(storage, UrlKey, defaults.ollamaUrl)
    ensures c.model == Lookup(storage, ModelKey, defaults.model)
    ensures c.targetLanguage == Lookup(storage, TargetLanguageKey, defaults.targetLanguage)
    ensures c.prompt == Lookup(storage, PromptKey, defaults.prompt)
  {
    Config(Lookup(storage, UrlKey, defaults.ollamaUrl),
           Lookup(storage, ModelKey, defaults.model),
           Lookup(storage, TargetLanguageKey, defaults.targetLanguage),
           Lookup(storage, PromptKey, defaults.prompt))
  }

  /** `chrome.storage.sync.set(config)`: the four keys are overwritten, all
      other keys are kept. */
  function StoreConfig(storage: Storage, c: Config): (s: Storage)
    ensures forall k :: k in storage ==> k in s
    ensures forall k :: k in s && k !in {UrlKey, ModelKey, TargetLanguageKey, PromptKey} ==>
              k in storage && s[k] == storage[k]
  {
    storage[UrlKey := c.ollamaUrl][ModelKey := c.model]
           [TargetLanguageKey := c.targetLanguage][PromptKey := c.prompt]
  }

  /** Storing a configuration and reading it back gives the same four
      values, whatever the defaults and whatever was stored before. */
  lemma StoreThenLoad(storage: Storage, c: Config, defaults: Config)
    ensures LoadConfig(StoreConfig(storage, c), defaults) == c
  {
    var s := StoreConfig(storage, c);
    assert UrlKey != ModelKey && UrlKey != TargetLanguageKey && UrlKey != PromptKey;
    assert ModelKey != TargetLanguageKey && ModelKey != PromptKey;
    assert TargetLanguageKey != PromptKey;
  }

  /** The same for every set of defaults at once: whichever context reads
      the stored configuration back, with whatever defaults, gets it. */
  lemma StoreThenLoadAnyDefaults(storage: Storage, c: Config)
    ensures forall defaults :: LoadConfig(StoreConfig(storage, c), defaults) == c
  {
    forall defaults {
      StoreThenLoad(storage, c, defaults);
    }
  }

  /** The reply to a `translate` message: `{success: true, translation}` or
      `{success: false, error}`. */
  datatype TranslateReply = Translated(translation: string) | TranslateFailed(error: string)

  /** What the sender of a message gets back: the receiver's reply (absent
      when the receiver answered nothing), or `chrome.runtime.lastError` when
      the receiving context could not be reached. */
  datatype Delivery<R> = Delivered(reply: Option<R>) | Undelivered(lastError: string)

  /** The message actions of the extension. */
  datatype Request =
    | Translate(text: string)
    | GetSelectedText
    | TranslateSelection(text: string)

  /** The variable the service reads its allowed origins from. */
  const OriginsVariable := "OLLAMA_ORIGINS"

  /** The remediation text shown for HTTP 403, by both the background worker
      and the popup's connection test. */
  const PermissionHelp :=
    PermissionHeader + OriginsVariable + "=\"*\"\n3. 重启Ollama: ollama serve\n4. 或尝试: "
    + OriginsVariable + "=\"*\" ollama serve"

  const PermissionTitle := "权限错误。解决方案："

  /** The opening of the permission text, up to the first mention of the
      origins variable. */
  const PermissionHeader :=
    PermissionTitle + "\n1. 停止Ollama: pkill ollama\n2. 设置环境变量: export "

  /** The text that replaces any `TypeError` (a failed connection). */
  const CannotConnect := "无法连接到Ollama服务"

  const DefaultUrl := "http://localhost:11434"

  /** The URL of GET /api/tags on a service base URL. */
  function TagsUrl(baseUrl: string): (url: string)
    ensures StartsWith(url, baseUrl)
  {
    baseUrl + "/api/tags"
  }

  /** The permission text names the origins variable, and does so at a
      position that can be given. */
  lemma PermissionHelpNamesOrigins()
    ensures Contains(PermissionHelp, OriginsVariable)
  {
    var prefix := PermissionHeader;
    assert PermissionHelp[|prefix|..|prefix| + |OriginsVariable|] == OriginsVariable;
    assert OccursAt(PermissionHelp, OriginsVariable, |prefix|);
  }
}
